=== FILE: README.md ===
# Investor evaluation settlement engine, in Dafny

This project models the settlement engine of the investor-evaluation page (`calculate()` in
`app.js` and the helpers it calls) and proves properties of that model.

The engine settles one period for a population of participants. Each participant has a return
`R`, a maximum drawdown `MDD`, a leverage and a year-to-date contribution. A settlement runs in
these steps:

1. **Scores.** Each participant gets a composite score `P` (`computeP`: annualised return, Calmar
   ratio, drawdown discount) and its logarithm `lnP`.
2. **Robust statistics.** The centre `C` is the median of the log-scores. The scale `D` is
   `max(1.4826 * MAD, Dln_min)`, where MAD is the median absolute deviation from `C`.
3. **Leaders.** The leaders are the participants at the maximum log-score. If the whole
   population ties, only the first one leads.
4. **Contributions.** Every non-leader pays a share of the pot target:
   - the share is a softmax over its clipped distance below the leader, mixed with a uniform
     share;
   - it is capped by the quarterly cap `CAP_Q` and by what the yearly cap `CAP_Y` still allows.
5. **Leverage override.** Every participant over the leverage limit (a "violator") is charged its
   full allowance instead, leader or not.
6. **Pot.** The contributions are rounded with `Math.round`, and their total is the integer pot.
7. **Credits.**
   - The credit weights are a softmax over the standardised log-scores `(lnP - C) / D`.
   - Violators get zero weight, and the remaining weights are renormalised.
   - The pot is split in proportion to the weights and rounded by the largest-remainder method.
   - Violators are then forced back to zero credit.
   - If that changes the total, the pot is allocated again among the non-violators only.
8. **After-state.** Each participant's net amount, new year-to-date contribution and remaining
   yearly cap are computed.

The model is functional throughout: immutable sequences of `real` and `int`, with pure functions
and lemmas. The modules follow the engine's stages:

| module | file | models |
|---|---|---|
| `Outcomes` | outcomes.dfy | `Option` (the `NaN` of an empty median) and `Result` |
| `Sums` | sums.dfy | `reduce((a, b) => a + b, 0)` over integers and reals, and its algebra |
| `Numeric` | numeric.dfy | `clamp`, `roundInt`, `Math.max(...)`, `Math.min(...)`, `indexOf`, counting flags |
| `Indices` | indices.dfy | index lists built with `filter`, gathering values at them and writing values back through them |
| `Sorting` | sorting.dfy | the ascending sort inside `median`; the stable descending sort of remainders |
| `Medians` | median.dfy | `median`, the absolute deviations, and the robust statistics `C`, `MAD` and `D` |
| `Remainder` | remainder.dfy | `allocateIntegersByRemainder` |
| `Softmax` | softmax.dfy | `stableSoftmax`, including the uniform fallback |
| `Parameters` | params.dfy | the fixed parameter set `PARAMS`, as a value passed to every stage |
| `Scoring` | score.dfy | `computeP` |
| `Leaders` | leaders.dfy | leader detection with the all-tie fallback |
| `Contribution` | contribution.dfy | distances, clipping, raw payments, caps and the leverage override |
| `Credit` | credit.dfy | credit weights, credit floats, integer credits with zeroing and repair |
| `Settlement` | settlement.dfy | `calculate` as a whole, the after-state, and the settlement-wide properties |

### How floating-point functions are modelled

`Math.pow`, `Math.log` and `Math.exp` are parameters: the `Transcendentals` value of a
settlement, and the `pow` and `exp` arguments of the stages. A property that depends on them
states what it needs as a hypothesis:
- `Softmax.NonNegative`, `Softmax.Positive` and `Softmax.Monotone` for the exponential;
- `Scoring.PowPositive` and `Scoring.PowMonotone` for the power function;
- `Settlement.StrictlyIncreasing` for the logarithm, on the positive reals, where `Math.log` is
  applied.

The true functions satisfy all of these hypotheses.

JavaScript's `Math.round(x)` is modelled as `floor(x + 1/2)`. The `NaN` that `median` returns for
an empty list is modelled as `None`.

### Behaviour worth knowing

The model follows `app.js` as written, including these points:
- **Input validation.** `calculate` runs `validateRow` on every row (app.js:243-249) and stops
  when any row fails. `Settlement.Calculate` returns `InvalidRows` naming exactly the failing
  rows.
- **All participants are violators.** Every credit is forced to zero and the repair has nobody
  to give the pot to, so the collected pot is silently not handed out.
  `Settlement.AllViolatorsWithheld` states this: nobody is credited, and the nets add up to
  minus the pot.
- **Rounding mode.** `roundInt` uses `Math.round`, which rounds halves upward.
- **The remainder wrap-around.** `allocateIntegersByRemainder` returns to the front of the
  remainder order when units are left at its end (app.js:104). The model keeps this, and
  `Remainder.AllocateByRemainder` meets the total for any shortfall, including one larger than
  the number of shares.

## Model

| member | source | states |
|---|---|---|
| Numeric.RoundInt | app.js:55-58 | the result is the integer within half a unit of the input, halves going up; non-negative inputs round to non-negative integers |
| Numeric.RoundIntBelowIntegralBound | app.js:55-58 | rounding never exceeds an integer bound that the value itself respects |
| Numeric.Clamp | app.js:60-62 | for an ordered interval the result lies inside it, is the input when the input lies inside, and is the nearer end otherwise; for a reversed interval it is `hi` |
| Numeric.MaxOf | app.js:269 | `Math.max(...s)` is an element of the list, and no element exceeds it |
| Numeric.MinOf | app.js:293 | `Math.min(...s)` is an element of the list, and no element falls below it |
| Numeric.IndexOf | app.js:275 | `indexOf` returns the first position holding the value, or -1 exactly when no position does |
| Numeric.Count | app.js:273 | `filter(Boolean).length` is at most the length; it equals the length exactly when every flag is set, and is zero exactly when none is |
| Sorting.SortAsc | app.js:65 | the ascending sort returns a sorted permutation of its input |
| Sorting.SortedUnique | app.js:65 | two sorted lists with the same elements are equal, so the sorted copy is determined by the elements alone |
| Sorting.SortAscPermutation | app.js:65 | reordering the input does not change its ascending sort |
| Sorting.DescendingOrder | app.js:96 | the remainder order lists every index exactly once, with keys non-increasing and equal keys in index order (a stable sort) |
| Medians.Median | app.js:64-70 | the median is missing exactly for an empty list |
| Medians.Middle | app.js:66-69 | the middle of a sorted list is missing exactly when the list is empty, and otherwise lies between its first and last element |
| Medians.MedianOfSorted | app.js:65-69 | the median is the middle element of any ascending arrangement for an odd length, and the mean of the two middle elements for an even length |
| Medians.MedianPermutationInvariant | app.js:64-65 | input order never affects the median, because a sorted copy is used |
| Medians.MedianBetween | app.js:64-70 | the median of values that all lie in an interval lies in that interval |
| Medians.MedianWithinRange | app.js:64-70 | the median of a non-empty list lies between its least and greatest element |
| Medians.Deviations | app.js:265 | each absolute deviation is non-negative and is plus or minus the difference from the centre |
| Medians.RobustStats | app.js:263-267 | `C` is the median of the log-scores and `MAD` is the median of their absolute deviations from `C`; `C` lies within the log-scores; `MAD` lies between 0 and their spread; `D` is at least `Dln_min` and at least `1.4826 * MAD`, and equals one of them |
| Softmax.StableSoftmax | app.js:72-83 | one weight per input; with a non-negative exponential the weights are non-negative and add up to one; with a positive exponential each is positive; when the exponentials add up to nothing positive each weight is `1/n` |
| Softmax.Uniform | app.js:78-81 | the fallback gives each of the `n` inputs the positive weight `1/n`, and these add up to one |
| Softmax.Normalize | app.js:82 | dividing by a positive total keeps each sign, and the results add up to the values' total over that total |
| Softmax.NormalizeMonotone | app.js:82 | dividing by a positive total keeps the order of the values |
| Softmax.Shifted | app.js:74-76 | one shifted exponential per input; the entry of every largest scaled input is `exp(0)`, and with a non-decreasing exponential none exceeds `exp(0)`; signs follow the exponential's |
| Softmax.ShiftedMonotone | app.js:74-76 | with a non-decreasing exponential and a non-negative temperature, a larger input never gets a smaller shifted exponential |
| Softmax.SoftmaxMonotone | app.js:72-83 | with a non-decreasing exponential and a non-negative temperature, a larger input never gets a smaller weight |
| Remainder.FloorPart | app.js:88 | `floor(max(0, x))` is a non-negative integer within one unit below `max(0, x)` |
| Remainder.FracPart | app.js:92-95 | the remainder lies in `[0, 1)`, and floor plus remainder gives back `max(0, x)` |
| Remainder.Distribute | app.js:98-105 | the hand-out loop never lowers an entry; with a non-empty order and the cursor inside it, the total grows by exactly the shortfall, wrap-arounds included |
| Remainder.DistributeFromStart | app.js:98-105 | the hand-out loop only adds; with a non-empty order it hands out every unit of the shortfall; without a wrap-around exactly the first `k` indices of the order gain one unit |
| Remainder.RemainderOrder | app.js:92-96 | the remainder order is a stable, non-increasing arrangement of every index by fractional remainder |
| Remainder.AllocateByRemainder | app.js:85-107 | no entry is below its floor or negative; the total is met exactly for a non-empty list when the floors do not exceed it; otherwise the floors are returned and overshoot; an empty list gets nothing; a shortfall of at most `n` gives each entry its floor or its floor plus one |
| Remainder.AllocationExtras | app.js:96-105 | for a shortfall `k` between 0 and `n`, an entry gets the extra unit exactly when it is among the first `k` of the remainder order |
| Remainder.LargestRemaindersWin | app.js:92-105 | an entry that got the extra unit never has a smaller remainder than one that did not; on equal remainders the earlier index is served first |
| Parameters.DefaultsValid | app.js:7-22 | the engine's constants have non-negative caps, target, temperatures and clip, positive floors, and a mixing weight in `[0, 1]` |
| Scoring.ReturnBase | app.js:136-138 | `base` is at least 0.2, and the inner clamp at -0.9 never changes it |
| Scoring.Fragility | app.js:137 | the drawdown discount is at least 0.3, and at most 1 for a non-negative drawdown |
| Scoring.FragilityMonotone | app.js:137 | a larger drawdown never gives a larger discount |
| Scoring.ComputeP | app.js:133-141 | the Calmar ratio times `MDD + mdd0` gives back the annualised return; with a positive power function the score is positive, so its logarithm exists |
| Scoring.ScoreMonotoneInReturn | app.js:133-141 | at the same drawdown, a higher return never gives a lower score |
| Leaders.LeaderFlags | app.js:269-278 | a non-empty population has a leader, and every leader is at the maximum; without a full tie the leaders are exactly the participants at the maximum; with a full tie only index 0 leads; two or more participants leave at least one non-leader |
| Leaders.LeaderCount | app.js:273-277 | the leader count is at least one, and exactly one under a full tie |
| Contribution.CapRemain | app.js:281 | the remaining yearly cap is non-negative, at least `CAP_Y - YTD`, and equal to one of the two |
| Contribution.Allowance | app.js:317 | the allowance `min(CAP_Q, capRemain)` exceeds neither cap and equals one of them |
| Contribution.Distances | app.js:291 | a distance is non-negative exactly for a score at or below the maximum, and a lower score is farther away |
| Contribution.Clipped | app.js:292-298 | each clipped distance is the smaller of `t_j - min(t)` and `u_clip`, lies in `[0, u_clip]`, the non-leader closest to the leader gets 0, and the clipping keeps the order of the distances |
| Contribution.FractionalYtdOvershoot | app.js:281-323 | at a year-to-date value of 499.4 under the engine's constants the allowance is 0.6 and rounds to a charge of 1, above the 0.6 the yearly cap still allows |
| Contribution.RawPayments | app.js:300-307 | with valid parameters and non-negative weights every raw payment is at least the uniform share `PotTarget * alpha / n`; weights adding up to one split exactly the pot target |
| Contribution.RawShares | app.js:290-307 | the non-leaders' raw payments, one per non-leader; with a non-negative exponential they add up to the pot target and none is below the uniform share |
| Contribution.PlaceShares | app.js:306-310 | the `j`-th non-leader receives the `j`-th share, leaders keep zero, every non-leader gets at least the smallest share, and the total is kept |
| Contribution.RawContributions | app.js:285-310 | leaders' raw payments are zero; with a non-negative exponential each non-leader's is at least the uniform share (`PotTarget * alpha` over the number of non-leaders), and with a non-leader present they add up to the pot target |
| Contribution.Capped | app.js:306-310 | a non-leader pays its raw payment when that is within the allowance and exactly the allowance otherwise, never more than either; leaders pay nothing; with non-negative raw payments the total never grows, and without any cut it is unchanged |
| Contribution.NonLeaderContributions | app.js:283-311 | leaders pay nothing and nobody pays more than the allowance; with a non-negative exponential each non-leader pays at least the smaller of its allowance and the uniform share (`PotTarget * alpha` over the number of non-leaders), the non-leaders together pay at most the pot target, and exactly the pot target when every non-leader stays below its allowance |
| Contribution.ContribFloats | app.js:283-319 | every violator pays exactly its allowance, leader or not; other leaders pay nothing; other non-leaders pay at most their allowance and, with a non-negative exponential, at least the smaller of its allowance and the uniform share (`PotTarget * alpha` over the number of non-leaders); nobody pays a negative amount |
| Contribution.DefaultFloorPositive | app.js:302-309 | under the engine's constants, with at least one non-leader and a year-to-date value below the yearly cap, the smaller of the uniform share and the allowance is positive, so the floor on a non-violating non-leader's payment is never zero |
| Credit.Standardized | app.js:326 | a standardised score is non-negative exactly at or above the centre, and standardising keeps the order of the log-scores |
| Credit.CreditWeights | app.js:327-330 | violators weigh nothing; with a non-negative exponential the weights are non-negative and add up to one or are all zero; with a positive exponential and a non-violator they add up to one |
| Credit.CreditFloats | app.js:332 | each credit float is the pot times its weight; the credit floats add up to the pot times the weights' total; a zero weight gives a zero share, and a non-negative pot keeps the shares non-negative |
| Credit.ZeroViolators | app.js:336-338 | after zeroing the violators, the credits add up to exactly the non-violators' credits |
| Credit.EligibleShares | app.js:343-344 | one share per non-violator, the `j`-th being the credit float of the `j`-th non-violator in population order; when the violators' shares are zero, the eligible shares carry the whole credit |
| Credit.CreditInts | app.js:333-352 | no credit is negative and violators get none; every eligible participant gets at least the whole part of their credit float; if all participants are violators the credits add up to zero; if someone is eligible and the eligible floors fit in the pot, the credits add up to the pot |
| Credit.Reallocated | app.js:342-351 | the second allocation over the eligible participants leaves nobody negative, gives every eligible participant at least the whole part of their credit float, gives violators nothing, and hands out the whole pot whenever someone is eligible and the eligible floors fit in it |
| Credit.RepairFloors | app.js:342-351 | each eligible participant's entry of the second allocation is at least the whole part of their own credit float |
| Credit.RepairSum | app.js:340-352 | the repair allocation meets the pot whenever someone is eligible and the eligible floors fit in it |
| Credit.RepairWritesAllocation | app.js:346-351 | after the repair the eligible participants hold exactly the second allocation, and violators hold zero |
| Credit.CreditsExhaustPot | app.js:332-352 | with a non-negative pot, non-negative weights adding up to one (or all zero) and someone eligible, the integer credits add up to exactly the pot |
| Credit.EligibleFloorsWithinPot | app.js:343-345 | the floors of the eligible shares never exceed the pot |
| Settlement.LogScores | app.js:258 | one log-score per participant; with positive scores and a logarithm strictly increasing on the positive reals the log-scores order the participants exactly as the scores do, ties included |
| Settlement.ProductRuleIncreasing | app.js:258 | a logarithm with the product rule on the positive reals that is positive above one, as `Math.log` is, meets the strict-increase hypothesis the log-score ordering rests on |
| Settlement.Scores | app.js:256-258 | one score per participant, each positive with a positive power function |
| Settlement.RoundAll | app.js:321 | each rounded contribution lies within half a unit of its real amount |
| Settlement.Rank | app.js:256-278 | the scale is at least `Dln_min`; at least one participant leads, and at least one does not; several lead only when the log-scores are not all tied |
| Settlement.Charges | app.js:280-323 | the violator, leader and non-leader rules hold for every real contribution; each integer contribution rounds its real amount; with a non-negative exponential none is negative and every non-violating non-leader pays at least the smaller of its allowance and the uniform share (`PotTarget * alpha` over the number of non-leaders); the pot is their total |
| Settlement.Weights | app.js:325-330 | violators weigh nothing; with a non-negative exponential the weights are non-negative and add up to one or are all zero |
| Settlement.Payouts | app.js:332-352 | each credit float is the pot times that participant's credit weight; every eligible participant's integer credit is at least the whole part of their credit float; violators are credited nothing; no credit is negative; if all participants are violators nothing is credited |
| Settlement.PayoutFor | app.js:332-352 | for weights that are zero on the violators: each credit float is the pot times the weight, each eligible integer credit is at least the whole part of its float, violators get nothing, nobody gets a negative credit, and an all-violator population is credited nothing |
| Settlement.AfterState | app.js:354-356 | net plus contribution gives the credit; the new year-to-date value is the old one plus the contribution minus the credit; the remaining cap is exactly `max(0, CAP_Y - ytdAfter)`: non-negative, at least `CAP_Y` minus the new year-to-date value, and equal to one of the two |
| Settlement.Settle | app.js:253-356 | every per-participant list has one entry per participant, and the violator flags are exactly the leverage test |
| Settlement.ValidateRow | app.js:218-235 | each complaint is raised exactly when its own check fails (return at most -1, drawdown outside 0 to 1.5, negative leverage, negative year-to-date contribution), in the order of the checks and never twice; a row draws no complaint exactly when it passes the row checks |
| Settlement.Rejected | app.js:218-235 | the rejected indices are exactly the rows that fail the numeric row checks, each listed once |
| Settlement.Calculate | app.js:237-251 | fewer than two rows is refused as too few; otherwise any failing row refuses the calculation and names exactly the failing rows; otherwise the population is settled |
| Settlement.ChargeNonNegative | app.js:321-323 | with a non-negative exponential the pot is never negative |
| Settlement.PayoutConserves | app.js:332-352 | with a non-negative exponential, a non-negative pot and someone eligible, the credits add up to exactly the pot |
| Settlement.LedgerBalances | app.js:354-355 | the nets add up to the credits minus the contributions, and the year-to-date total moves by minus the nets; when the credits equal the contributions, the nets add up to zero and the year-to-date total is unchanged |
| Settlement.ChargeWithinIntegralCaps | app.js:308-321 | with whole-number caps and year-to-date value, a rounded contribution exceeds neither cap |
| Settlement.ViolatorCharged | app.js:315-338 | a violator is charged its full allowance and credited nothing, leader or not |
| Settlement.LeaderExempt | app.js:283-313 | a leader within the leverage limit pays nothing, in real or integer terms |
| Settlement.NonLeaderWithinAllowance | app.js:306-319 | a non-leader within the leverage limit pays at most its allowance; with a non-negative exponential it pays nothing negative and at least the smaller of its allowance and the uniform share (`PotTarget * alpha` over the number of non-leaders) |
| Settlement.PotNonNegative | app.js:321-323 | with a non-negative exponential the pot of a settlement is never negative |
| Settlement.CreditsAddUpToPot | app.js:333-352 | with a non-negative exponential and someone within the leverage limit, the credits add up to exactly the pot |
| Settlement.NetsBalance | app.js:321-356 | in every settlement the nets add up to the credits minus the pot, and the year-to-date total moves by minus the nets |
| Settlement.Conservation | app.js:280-356 | with a non-negative exponential and someone within the leverage limit: the credits equal the pot, which equals the contributions' total; the nets add up to zero; the year-to-date total is unchanged |
| Settlement.AllViolatorsWithheld | app.js:315-352 | when every participant is a violator, each is charged its full allowance and nobody is credited, so the nets add up to minus the pot |
| Settlement.IntegralCapsRespected | app.js:308-321 | with whole-number caps and year-to-date value, a settled rounded contribution exceeds neither `CAP_Q` nor the remaining yearly cap |

## Left out

- **Browser layer.** DOM access, table rows and rendering are not modelled: `initConstantsView`,
  `makeRow`, `seedRows`, `getRows`, `setOut`, `fmt`, event wiring, and the flag and error texts.
  They only display values.
- **Random names.** The random fallback name that `getRows` gives an unnamed row is not
  modelled, because it is non-deterministic. It is also why `validateRow`'s empty-name check can
  never fire, so `Settlement.ValidateRow` and `Settlement.RowValid` leave it out.
- **Number parsing.** `toNumberOrNaN` and the `isFiniteNumber` checks are not modelled: the model
  takes numbers, and a Dafny `real` is always finite.
- **Date handling.** `parseDateInput` and `getAnnualizationPower` do calendar arithmetic on
  `Date`. The annualisation exponent `annPower` is a parameter of the model.
- **Floating-point functions.** `Math.pow`, `Math.log` and `Math.exp` are parameters. Properties
  that depend on them carry the hypotheses listed above.
- **Floating-point arithmetic.** All arithmetic is exact real arithmetic. Rounding error, overflow
  to infinity, and the softmax's `!Number.isFinite(sum)` fallback are not modelled; with exact
  reals that fallback is taken only when the sum is not positive.
- **Display-only values.** `PARAMS.n` is only displayed. `contribSumFloat` is computed but never
  used. Neither is modelled.
- **Remainder sort order.** The model fixes it to the stable order of the JavaScript sort: equal
  remainders are served in index order. The totals and floor bounds do not depend on that choice.
- **Settlement preconditions.** `Settlement.Settle` and the lemmas about it require a drawdown of
  at least zero (`computeP` divides by `MDD + mdd0`). `Settlement.Calculate` establishes this
  through the row checks.
- **Empty non-leader set.** The leader rule makes the empty non-leader branch unreachable for two
  or more participants. `Contribution.RawContributions` and
  `Contribution.NonLeaderContributions` still handle it: nobody pays anything.
- Contribution.NonLeaderContributions: states the exact pot-target total only when every
  non-leader pays strictly less than its allowance. A raw payment that lands exactly on the
  allowance is covered by `Contribution.Capped`, whose contract speaks of the raw payments.
- Settlement.IntegralCapsRespected: proves the caps only when the caps and the year-to-date
  contribution are whole numbers. With a fractional year-to-date value, `Math.round` can round a
  contribution up past the remaining yearly cap: a remaining cap of 0.6 charges 1, as
  `Contribution.FractionalYtdOvershoot` shows.
- Settlement.ChargeWithinIntegralCaps: limited to whole-number caps and year-to-date values, for
  the same reason.
- Settlement.Conservation: assumes a non-negative exponential and at least one participant within
  the leverage limit. The other case is `Settlement.AllViolatorsWithheld`, where the pot is not
  distributed.
- Softmax.StableSoftmax: the sum-to-one and positivity guarantees hold under the stated hypotheses
  on the exponential, not for an arbitrary function.

=== FILE: contribution.dfy ===
/** Contributions into the pot: each non-leader pays a softmax share of the pot target,
    driven by how far it sits below the leader, within its caps; every leverage violator is
    then charged its full allowance, leader or not. */
module Contribution {
  import opened Numeric
  import opened Sums
  import opened Indices
  import opened Softmax
  import opened Parameters

  /** `capRemain = max(0, CAP_Y - YTD_Contrib)`: what the yearly cap still allows, never
      negative. */
  function CapRemain(p: Params, ytd: real): (r: real)
    ensures r >= 0.0 && r >= p.capY - ytd
    ensures r == 0.0 || r == p.capY - ytd
  {
    Max(0.0, p.capY - ytd)
  }

  /** `min(CAP_Q, capRemain)`: the most a participant may pay in this settlement. */
  function Allowance(p: Params, ytd: real): (a: real)
    ensures a <= p.capQ && a <= CapRemain(p, ytd)
    ensures a == p.capQ || a == CapRemain(p, ytd)
  {
    Min(p.capQ, CapRemain(p, ytd))
  }

  /** With a fractional year-to-date value the rounded allowance can exceed what the yearly cap
      still allows: at 499.4 of the default 500 the allowance is 0.6, and `Math.round` makes it
      a charge of 1. */
  lemma FractionalYtdOvershoot()
    ensures CapRemain(Defaults, 499.4) == 0.6
    ensures Allowance(Defaults, 499.4) == 0.6
    ensures RoundInt(Allowance(Defaults, 499.4)) == 1
    ensures RoundInt(Allowance(Defaults, 499.4)) as real > CapRemain(Defaults, 499.4)
  {
    assert Max(0.0, 500.0 - 499.4) == 0.6;
    assert (0.6 + 0.5).Floor == 1;
  }

  /** `t_i = (lnPmax - lnP_i) / D`: the distance below the leader in units of the scale. It is
      non-negative exactly for scores not above `lnPmax`, and a lower score is farther away. */
  function Distances(lnP: seq<real>, lnPmax: real, d: real): (t: seq<real>)
    requires d > 0.0
    ensures |t| == |lnP|
    ensures forall i :: 0 <= i < |t| ==> (t[i] >= 0.0 <==> lnP[i] <= lnPmax)
    ensures forall i, j :: 0 <= i < |t| && 0 <= j < |t| ==> (t[i] <= t[j] <==> lnP[j] <= lnP[i])
  {
    var t := seq(|lnP|, i requires 0 <= i < |lnP| => (lnPmax - lnP[i]) / d);
    forall i | 0 <= i < |t|
      ensures t[i] >= 0.0 <==> lnP[i] <= lnPmax
    {
      DivideSign(lnPmax - lnP[i], d);
    }
    forall i, j | 0 <= i < |t| && 0 <= j < |t|
      ensures t[i] <= t[j] <==> lnP[j] <= lnP[i]
    {
      DivideOrder(lnPmax - lnP[i], lnPmax - lnP[j], d);
    }
    t
  }

  /** `u_j = min(t_j - min(t), u_clip)`: distances re-zeroed at the non-leader closest to the
      leader and clipped. Each is the re-zeroed distance or the clip, whichever is smaller,
      and lies in `[0, u_clip]`; the closest non-leader gets 0, and a larger distance never
      gets a smaller value. */
  function Clipped(t: seq<real>, uClip: real): (u: seq<real>)
    requires |t| > 0 && uClip >= 0.0
    ensures |u| == |t|
    ensures forall j :: 0 <= j < |u| ==>
      u[j] <= t[j] - MinOf(t) && u[j] <= uClip && (u[j] == t[j] - MinOf(t) || u[j] == uClip)
    ensures forall j :: 0 <= j < |u| ==> 0.0 <= u[j] <= uClip
    ensures exists j :: 0 <= j < |u| && u[j] == 0.0
    ensures forall i, j :: 0 <= i < |u| && 0 <= j < |u| && t[i] <= t[j] ==> u[i] <= u[j]
  {
    var tMin := MinOf(t);
    var u := seq(|t|, j requires 0 <= j < |t| => Min(t[j] - tMin, uClip));
    var k :| 0 <= k < |t| && t[k] == tMin;
    assert u[k] == 0.0;
    u
  }

  /** The uniform part `PotTarget * alpha / n` of each of `n` raw payments; zero when there is
      nobody to pay. Under valid parameters it is never negative. */
  function UniformShare(p: Params, n: nat): (y: real)
    ensures Valid(p) ==> y >= 0.0
  {
    if n == 0 then 0.0
    else
      var inv := 1.0 / n as real;
      assert Valid(p) ==> p.alpha * inv >= 0.0;
      p.potTarget * (p.alpha * inv)
  }

  /** Raw payments `PotTarget * ((1 - alpha) * w_j + alpha / |S|)`. With valid parameters and
      non-negative weights every payment is at least the uniform share `PotTarget * alpha / |S|`,
      and weights adding up to one split exactly the pot target. */
  function RawPayments(p: Params, w: seq<real>): (raw: seq<real>)
    requires |w| > 0
    ensures |raw| == |w|
    ensures Valid(p) && (forall j :: 0 <= j < |w| ==> w[j] >= 0.0) ==>
      forall j :: 0 <= j < |raw| ==> raw[j] >= UniformShare(p, |w|)
    ensures SumReal(w) == 1.0 ==> SumReal(raw) == p.potTarget
  {
    var n := |w| as real;
    var raw := seq(|w|, j requires 0 <= j < |w| => p.potTarget * ((1.0 - p.alpha) * w[j] + p.alpha * (1.0 / n)));
    var x := p.potTarget * (1.0 - p.alpha);
    var y := UniformShare(p, |w|);
    RawPaymentsAffine(p, w, raw, x, y);
    MixTotal(p.potTarget, p.alpha, |w|, x, y);
    RawPaymentsTotal(p, w, raw, x, y);
    RawPaymentsAboveUniform(p, w, raw, x, y);
    raw
  }

  /** Each raw payment is `x * w_j + y` with `x = PotTarget * (1 - alpha)` and
      `y = PotTarget * alpha / n`. */
  lemma RawPaymentsAffine(p: Params, w: seq<real>, raw: seq<real>, x: real, y: real)
    requires |w| > 0 && |raw| == |w|
    requires x == p.potTarget * (1.0 - p.alpha) && y == p.potTarget * (p.alpha * (1.0 / |w| as real))
    requires forall j :: 0 <= j < |w| ==> raw[j] == p.potTarget * ((1.0 - p.alpha) * w[j] + p.alpha * (1.0 / |w| as real))
    ensures forall j :: 0 <= j < |w| ==> raw[j] == x * w[j] + y
  {
    forall j | 0 <= j < |w|
      ensures raw[j] == x * w[j] + y
    {
      MixExpands(p.potTarget, p.alpha, w[j], 1.0 / |w| as real);
    }
  }

  /** Weights adding up to one make the raw payments add up to the pot target. */
  lemma RawPaymentsTotal(p: Params, w: seq<real>, raw: seq<real>, x: real, y: real)
    requires |w| > 0 && |raw| == |w|
    requires x + |w| as real * y == p.potTarget
    requires forall j :: 0 <= j < |w| ==> raw[j] == x * w[j] + y
    ensures SumReal(w) == 1.0 ==> SumReal(raw) == p.potTarget
  {
    SumRealAffine(w, raw, x, y);
    var sw := SumReal(w);
    if sw == 1.0 {
      assert x * sw == x;
    }
  }

  /** The part kept for the weights and the `n` uniform parts add back up to the pot target. */
  lemma MixTotal(t: real, a: real, n: nat, x: real, y: real)
    requires n > 0 && x == t * (1.0 - a) && y == t * (a * (1.0 / n as real))
    ensures x + n as real * y == t
  {
    UniformShareTotal(t, a, n, y);
    WeightsComplement(t, a);
  }

  /** The two parts of the mix add back up to the whole. */
  lemma WeightsComplement(t: real, a: real)
    ensures t * (1.0 - a) + t * a == t
  {
    assert t * (1.0 - a) == t * 1.0 - t * a;
  }

  lemma MixExpands(t: real, a: real, v: real, inv: real)
    ensures t * ((1.0 - a) * v + a * inv) == (t * (1.0 - a)) * v + t * (a * inv)
  {
  }

  /** `n` uniform shares `t * (a * (1 / n))` add up to `t * a`. */
  lemma UniformShareTotal(t: real, a: real, n: nat, y: real)
    requires n > 0 && y == t * (a * (1.0 / n as real))
    ensures n as real * y == t * a
  {
    var inv := 1.0 / n as real;
    assert n as real * inv == 1.0;
    assert n as real * (t * (a * inv)) == t * a * (n as real * inv);
  }

  /** With valid parameters and non-negative weights no raw payment falls below the uniform
      part `y`. */
  lemma RawPaymentsAboveUniform(p: Params, w: seq<real>, raw: seq<real>, x: real, y: real)
    requires |w| > 0 && |raw| == |w|
    requires x == p.potTarget * (1.0 - p.alpha) && y == UniformShare(p, |w|)
    requires forall j :: 0 <= j < |w| ==> raw[j] == x * w[j] + y
    ensures Valid(p) && (forall j :: 0 <= j < |w| ==> w[j] >= 0.0) ==> forall j :: 0 <= j < |raw| ==> raw[j] >= y
  {
    if Valid(p) && (forall j :: 0 <= j < |w| ==> w[j] >= 0.0) {
      assert x >= 0.0;
      forall j | 0 <= j < |raw|
        ensures raw[j] >= y
      {
        assert x * w[j] >= 0.0;
      }
    }
  }

  /** The raw payments over the non-leader list `S`, in the order of `S`: distances below the
      leader, re-zeroed and clipped, through the contribution softmax and the uniform mix. With a
      non-negative exponential they add up to the pot target and none falls below the uniform
      share. */
  function RawShares(p: Params, lnP: seq<real>, d: real, s: seq<nat>, exp: real -> real): (raw: seq<real>)
    requires Valid(p) && d > 0.0 && |s| > 0
    requires InBounds(s, |lnP|)
    ensures |raw| == |s|
    ensures NonNegative(exp) ==> SumReal(raw) == p.potTarget
    ensures NonNegative(exp) ==> forall j :: 0 <= j < |raw| ==> raw[j] >= UniformShare(p, |s|)
  {
    var t := Distances(lnP, MaxOf(lnP), d);
    var u := Clipped(Gather(t, s), p.uClip);
    RawPayments(p, StableSoftmax(u, p.kContrib, exp))
  }

  /** The number of non-leaders, `|S|`. */
  function NonLeaderCount(leaders: seq<bool>): nat
  {
    |Where(Not(leaders))|
  }

  /** Each participant's raw payment before the caps, at its own position: a leader's is zero;
      with a non-negative exponential no non-leader's falls below the uniform share
      `PotTarget * alpha / |S|`, and when there is a non-leader they add up to the pot target. */
  function RawContributions(p: Params, lnP: seq<real>, d: real, leaders: seq<bool>, exp: real -> real): (raw: seq<real>)
    requires Valid(p) && d > 0.0 && |leaders| == |lnP|
    ensures |raw| == |lnP|
    ensures forall i :: 0 <= i < |raw| && leaders[i] ==> raw[i] == 0.0
    ensures NonNegative(exp) ==> forall i :: 0 <= i < |raw| && !leaders[i] ==>
      raw[i] >= UniformShare(p, NonLeaderCount(leaders)) >= 0.0
    ensures NonNegative(exp) && NonLeaderCount(leaders) > 0 ==> SumReal(raw) == p.potTarget
  {
    var s := Where(Not(leaders));
    if |s| == 0 then Zeros(|lnP|)
    else
      var raw := PlaceShares(leaders, RawShares(p, lnP, d, s, exp));
      RawAboveUniform(p, lnP, d, leaders, exp, raw);
      raw
  }

  lemma RawAboveUniform(p: Params, lnP: seq<real>, d: real, leaders: seq<bool>, exp: real -> real, raw: seq<real>)
    requires Valid(p) && d > 0.0 && |leaders| == |lnP| && NonLeaderCount(leaders) > 0
    requires raw == PlaceShares(leaders, RawShares(p, lnP, d, Where(Not(leaders)), exp))
    ensures NonNegative(exp) ==> forall i :: 0 <= i < |raw| && !leaders[i] ==>
      raw[i] >= UniformShare(p, NonLeaderCount(leaders)) >= 0.0
  {
    SmallestAboveUniform(p, RawShares(p, lnP, d, Where(Not(leaders)), exp), exp);
  }



  /** Shares none of which falls below the uniform share have a smallest one that does not
      either. */
  lemma SmallestAboveUniform(p: Params, shares: seq<real>, exp: real -> real)
    requires |shares| > 0
    requires NonNegative(exp) ==> forall j :: 0 <= j < |shares| ==> shares[j] >= UniformShare(p, |shares|)
    ensures NonNegative(exp) ==> MinOf(shares) >= UniformShare(p, |shares|)
  {
  }

  /** The shares of the non-leaders written at their own positions, zero for the leaders: the
      `j`-th non-leader receives the `j`-th share, so none receives less than the smallest, and
      the total is kept. */
  function PlaceShares(leaders: seq<bool>, shares: seq<real>): (raw: seq<real>)
    requires |shares| == NonLeaderCount(leaders) > 0
    ensures |raw| == |leaders|
    ensures forall i :: 0 <= i < |raw| && leaders[i] ==> raw[i] == 0.0
    ensures forall i :: 0 <= i < |raw| && !leaders[i] ==> raw[i] >= MinOf(shares)
    ensures SumReal(raw) == SumReal(shares)
    ensures forall j {:trigger Where(Not(leaders))[j]} :: 0 <= j < |shares| ==> raw[Where(Not(leaders))[j]] == shares[j]
  {
    var raw := Scatter(Zeros(|leaders|), Where(Not(leaders)), shares);
    PlacedShares(leaders, shares, raw);
    raw
  }

  /** `n` zeros. */
  function Zeros(n: nat): (z: seq<real>)
    ensures |z| == n && forall i :: 0 <= i < n ==> z[i] == 0.0
  {
    seq(n, _ => 0.0)
  }

  lemma PlacedShares(leaders: seq<bool>, shares: seq<real>, raw: seq<real>)
    requires |shares| == NonLeaderCount(leaders) > 0
    requires raw == Scatter(Zeros(|leaders|), Where(Not(leaders)), shares)
    ensures |raw| == |leaders|
    ensures forall i :: 0 <= i < |raw| && leaders[i] ==> raw[i] == 0.0
    ensures forall i :: 0 <= i < |raw| && !leaders[i] ==> raw[i] >= MinOf(shares)
    ensures SumReal(raw) == SumReal(shares)
    ensures forall j {:trigger Where(Not(leaders))[j]} :: 0 <= j < |shares| ==> raw[Where(Not(leaders))[j]] == shares[j]
  {
    var zeros := Zeros(|leaders|);
    var s := Where(Not(leaders));
    ScatterPlaces(leaders, s, shares, zeros, raw);
    ScatterTotal(leaders, s, shares, zeros, raw);
    PlacedAboveSmallest(leaders, s, shares, raw);
  }

  lemma PlacedAboveSmallest(leaders: seq<bool>, s: seq<nat>, shares: seq<real>, raw: seq<real>)
    requires |raw| == |leaders| && |shares| == |s| > 0
    requires forall i :: 0 <= i < |raw| && !leaders[i] ==> exists j :: 0 <= j < |s| && raw[i] == shares[j]
    ensures forall i :: 0 <= i < |raw| && !leaders[i] ==> raw[i] >= MinOf(shares)
  {
    forall i | 0 <= i < |raw| && !leaders[i]
      ensures raw[i] >= MinOf(shares)
    {
      var j :| 0 <= j < |s| && raw[i] == shares[j];
    }
  }

  /** Over zeros, the scatter leaves leaders at zero and gives every non-leader one of the
      shares. */
  lemma ScatterPlaces<T>(leaders: seq<bool>, s: seq<nat>, shares: seq<T>, zeros: seq<T>, raw: seq<T>)
    requires |zeros| == |leaders|
    requires s == Where(Not(leaders)) && |shares| == |s|
    requires raw == Scatter(zeros, s, shares)
    ensures forall i :: 0 <= i < |raw| && leaders[i] ==> raw[i] == zeros[i]
    ensures forall i :: 0 <= i < |raw| && !leaders[i] ==> exists j :: 0 <= j < |s| && raw[i] == shares[j]
  {
    forall i | 0 <= i < |raw| && leaders[i]
      ensures raw[i] == zeros[i]
    {
      assert !Not(leaders)[i];
    }
    forall i | 0 <= i < |raw| && !leaders[i]
      ensures exists j :: 0 <= j < |s| && raw[i] == shares[j]
    {
      assert Not(leaders)[i];
      var j :| 0 <= j < |s| && s[j] == i;
      assert raw[s[j]] == shares[j];
    }
  }

  /** Over zeros, the scatter keeps the total of the shares. */
  lemma ScatterTotal(leaders: seq<bool>, s: seq<nat>, shares: seq<real>, zeros: seq<real>, raw: seq<real>)
    requires |zeros| == |leaders| && (forall i :: 0 <= i < |zeros| ==> zeros[i] == 0.0)
    requires s == Where(Not(leaders)) && |shares| == |s|
    requires raw == Scatter(zeros, s, shares)
    requires forall i :: 0 <= i < |raw| && leaders[i] ==> raw[i] == zeros[i]
    ensures SumReal(raw) == SumReal(shares)
  {
    GatherScatter(zeros, s, shares);
    SumRealGatherWhere(raw, Not(leaders));
  }

  /** `min(raw, CAP_Q, capRemain)` for each non-leader and nothing for a leader: each
      non-leader pays its raw payment unless that exceeds its allowance, and then exactly its
      allowance. Cutting never raises a payment, so non-negative raw payments give non-negative
      payments whose total is at most the raw total, and when nobody's raw payment exceeds the
      allowance and the leaders' raw payments are zero nothing changes. */
  function Capped(p: Params, raw: seq<real>, leaders: seq<bool>, ytd: seq<real>): (r: seq<real>)
    requires Valid(p) && |raw| == |leaders| && |ytd| == |leaders|
    ensures |r| == |raw|
    ensures forall i :: 0 <= i < |r| && leaders[i] ==> r[i] == 0.0
    ensures forall i :: 0 <= i < |r| && !leaders[i] ==> r[i] <= raw[i] && r[i] <= Allowance(p, ytd[i])
    ensures forall i :: 0 <= i < |r| && !leaders[i] ==> r[i] == raw[i] || r[i] == Allowance(p, ytd[i])
    ensures (forall i :: 0 <= i < |raw| ==> raw[i] >= 0.0) ==> forall i :: 0 <= i < |r| ==> r[i] >= 0.0
    ensures (forall i :: 0 <= i < |raw| ==> raw[i] >= 0.0) ==> SumReal(r) <= SumReal(raw)
    ensures (forall i :: 0 <= i < |raw| && leaders[i] ==> raw[i] == 0.0)
            && (forall i :: 0 <= i < |raw| && !leaders[i] ==> raw[i] <= Allowance(p, ytd[i]))
            ==> r == raw
  {
    var r := seq(|raw|, i requires 0 <= i < |raw| => if leaders[i] then 0.0 else Min(raw[i], Allowance(p, ytd[i])));
    CappedTotal(p, raw, leaders, r);
    r
  }

  /** Payments never above their non-negative raw payments add up to no more than them. */
  lemma CappedTotal(p: Params, raw: seq<real>, leaders: seq<bool>, r: seq<real>)
    requires |raw| == |leaders| && |r| == |raw|
    requires forall i :: 0 <= i < |r| && leaders[i] ==> r[i] == 0.0
    requires forall i :: 0 <= i < |r| && !leaders[i] ==> r[i] <= raw[i]
    ensures (forall i :: 0 <= i < |raw| ==> raw[i] >= 0.0) ==> SumReal(r) <= SumReal(raw)
  {
    if forall i :: 0 <= i < |raw| ==> raw[i] >= 0.0 {
      SumRealBelow(r, raw);
    }
  }

  /** Under the engine's defaults the floor on a non-leader's payment bites: with at least one
      non-leader and a year-to-date value below the yearly cap it is positive, so a non-leader
      that is no violator is never let off with nothing. */
  lemma DefaultFloorPositive(n: nat, ytd: real)
    requires n > 0 && ytd < Defaults.capY
    ensures Min(UniformShare(Defaults, n), Allowance(Defaults, ytd)) > 0.0
  {
    var inv := 1.0 / n as real;
    assert inv > 0.0;
    assert Defaults.alpha * inv > 0.0;
  }

  /** Contributions before the leverage override: the raw payments cut down to the allowances.
      Leaders pay nothing and nobody pays more than the allowance. With a non-negative
      exponential nobody pays a negative amount, each non-leader pays at least the uniform
      share `PotTarget * alpha / |S|` or its whole allowance, whichever is smaller, and the
      non-leaders together pay at most the pot target, exactly the pot target when every
      non-leader stays below its allowance. */
  function NonLeaderContributions(p: Params, lnP: seq<real>, d: real, leaders: seq<bool>, ytd: seq<real>, exp: real -> real): (r: seq<real>)
    requires Valid(p) && d > 0.0
    requires |leaders| == |lnP| && |ytd| == |lnP|
    ensures |r| == |lnP|
    ensures forall i :: 0 <= i < |r| && leaders[i] ==> r[i] == 0.0
    ensures forall i :: 0 <= i < |r| && !leaders[i] ==> r[i] <= Allowance(p, ytd[i])
    ensures NonNegative(exp) ==> forall i :: 0 <= i < |r| ==> r[i] >= 0.0
    ensures NonNegative(exp) ==> forall i :: 0 <= i < |r| && !leaders[i] ==>
      r[i] >= Min(UniformShare(p, NonLeaderCount(leaders)), Allowance(p, ytd[i]))
    ensures NonNegative(exp) ==> SumReal(r) <= p.potTarget
    ensures NonNegative(exp) && NonLeaderCount(leaders) > 0
            && (forall i :: 0 <= i < |r| && !leaders[i] ==> r[i] < Allowance(p, ytd[i]))
            ==> SumReal(r) == p.potTarget
  {
    var raw := RawContributions(p, lnP, d, leaders, exp);
    var r := Capped(p, raw, leaders, ytd);
    CappedFacts(p, lnP, d, leaders, ytd, exp, raw, r);
    r
  }

  /** What the cut keeps of the raw payments' floor and total. */
  lemma CappedFacts(p: Params, lnP: seq<real>, d: real, leaders: seq<bool>, ytd: seq<real>, exp: real -> real,
                    raw: seq<real>, r: seq<real>)
    requires Valid(p) && d > 0.0
    requires |leaders| == |lnP| && |ytd| == |lnP|
    requires raw == RawContributions(p, lnP, d, leaders, exp)
    requires r == Capped(p, raw, leaders, ytd)
    ensures NonNegative(exp) ==> forall i :: 0 <= i < |r| ==> r[i] >= 0.0
    ensures NonNegative(exp) ==> forall i :: 0 <= i < |r| && !leaders[i] ==>
      r[i] >= Min(UniformShare(p, NonLeaderCount(leaders)), Allowance(p, ytd[i]))
    ensures NonNegative(exp) ==> SumReal(r) <= p.potTarget
    ensures NonNegative(exp) && NonLeaderCount(leaders) > 0
            && (forall i :: 0 <= i < |r| && !leaders[i] ==> r[i] < Allowance(p, ytd[i]))
            ==> SumReal(r) == p.potTarget
  {
    CappedRawFacts(p, leaders, raw, r, ytd, exp);
  }

  lemma CappedRawFacts(p: Params, leaders: seq<bool>, raw: seq<real>, r: seq<real>, ytd: seq<real>, exp: real -> real)
    requires Valid(p) && |raw| == |leaders| && |ytd| == |leaders|
    requires r == Capped(p, raw, leaders, ytd)
    requires forall i :: 0 <= i < |raw| && leaders[i] ==> raw[i] == 0.0
    requires NonNegative(exp) ==> forall i :: 0 <= i < |raw| && !leaders[i] ==>
      raw[i] >= UniformShare(p, NonLeaderCount(leaders)) >= 0.0
    requires NonNegative(exp) && NonLeaderCount(leaders) > 0 ==> SumReal(raw) == p.potTarget
    ensures NonNegative(exp) ==> forall i :: 0 <= i < |r| ==> r[i] >= 0.0
    ensures NonNegative(exp) ==> forall i :: 0 <= i < |r| && !leaders[i] ==>
      r[i] >= Min(UniformShare(p, NonLeaderCount(leaders)), Allowance(p, ytd[i]))
    ensures NonNegative(exp) ==> SumReal(r) <= p.potTarget
    ensures NonNegative(exp) && NonLeaderCount(leaders) > 0
            && (forall i :: 0 <= i < |r| && !leaders[i] ==> r[i] < Allowance(p, ytd[i]))
            ==> SumReal(r) == p.potTarget
  {
    if NonNegative(exp) {
      assert forall i :: 0 <= i < |raw| ==> raw[i] >= 0.0;
      if NonLeaderCount(leaders) > 0 {
        if forall i :: 0 <= i < |r| && !leaders[i] ==> r[i] < Allowance(p, ytd[i]) {
          assert forall i :: 0 <= i < |raw| && !leaders[i] ==> raw[i] <= Allowance(p, ytd[i]);
        }
      } else {
        SumRealZeros(r);
      }
    }
  }

  /** `contribFloat`: every leverage violator pays exactly its allowance `min(CAP_Q,
      capRemain)`, leader or not; other leaders pay nothing; every other non-leader pays at most
      its allowance and, with a non-negative exponential, at least the uniform share or its
      whole allowance, whichever is smaller; nobody pays a negative amount. */
  function ContribFloats(p: Params, lnP: seq<real>, d: real, leaders: seq<bool>, violations: seq<bool>, ytd: seq<real>, exp: real -> real): (r: seq<real>)
    requires Valid(p) && d > 0.0
    requires |leaders| == |lnP| && |violations| == |lnP| && |ytd| == |lnP|
    ensures |r| == |lnP|
    ensures forall i :: 0 <= i < |r| && violations[i] ==> r[i] == Allowance(p, ytd[i])
    ensures forall i :: 0 <= i < |r| && !violations[i] && leaders[i] ==> r[i] == 0.0
    ensures forall i :: 0 <= i < |r| && !violations[i] && !leaders[i] ==> r[i] <= Allowance(p, ytd[i])
    ensures NonNegative(exp) ==> forall i :: 0 <= i < |r| && !violations[i] && !leaders[i] ==>
      r[i] >= Min(UniformShare(p, NonLeaderCount(leaders)), Allowance(p, ytd[i]))
    ensures NonNegative(exp) ==> forall i :: 0 <= i < |r| ==> r[i] >= 0.0
  {
    var shaped := NonLeaderContributions(p, lnP, d, leaders, ytd, exp);
    var r := Override(p, shaped, violations, ytd);
    OverrideFacts(p, lnP, d, leaders, violations, ytd, exp, shaped, r);
    r
  }

  /** The leverage override: every violator's payment becomes its allowance, and everybody
      else's is kept. */
  function Override(p: Params, shaped: seq<real>, violations: seq<bool>, ytd: seq<real>): (r: seq<real>)
    requires |violations| == |shaped| && |ytd| == |shaped|
    ensures |r| == |shaped|
    ensures forall i :: 0 <= i < |r| ==> r[i] == if violations[i] then Allowance(p, ytd[i]) else shaped[i]
  {
    seq(|shaped|, i requires 0 <= i < |shaped| => if violations[i] then Allowance(p, ytd[i]) else shaped[i])
  }

  lemma OverrideFacts(p: Params, lnP: seq<real>, d: real, leaders: seq<bool>, violations: seq<bool>, ytd: seq<real>,
                      exp: real -> real, shaped: seq<real>, r: seq<real>)
    requires Valid(p) && d > 0.0
    requires |leaders| == |lnP| && |violations| == |lnP| && |ytd| == |lnP|
    requires shaped == NonLeaderContributions(p, lnP, d, leaders, ytd, exp)
    requires r == Override(p, shaped, violations, ytd)
    ensures NonNegative(exp) ==> forall i :: 0 <= i < |r| && !violations[i] && !leaders[i] ==>
      r[i] >= Min(UniformShare(p, NonLeaderCount(leaders)), Allowance(p, ytd[i]))
    ensures NonNegative(exp) ==> forall i :: 0 <= i < |r| ==> r[i] >= 0.0
  {
    OverrideKeeps(p, leaders, violations, ytd, exp, shaped, r);
  }

  lemma OverrideKeeps(p: Params, leaders: seq<bool>, violations: seq<bool>, ytd: seq<real>, exp: real -> real,
                      shaped: seq<real>, r: seq<real>)
    requires Valid(p) && |leaders| == |shaped| && |violations| == |shaped| && |ytd| == |shaped|
    requires r == Override(p, shaped, violations, ytd)
    requires NonNegative(exp) ==> forall i :: 0 <= i < |shaped| ==> shaped[i] >= 0.0
    requires NonNegative(exp) ==> forall i :: 0 <= i < |shaped| && !leaders[i] ==>
      shaped[i] >= Min(UniformShare(p, NonLeaderCount(leaders)), Allowance(p, ytd[i]))
    ensures NonNegative(exp) ==> forall i :: 0 <= i < |r| && !violations[i] && !leaders[i] ==>
      r[i] >= Min(UniformShare(p, NonLeaderCount(leaders)), Allowance(p, ytd[i]))
    ensures NonNegative(exp) ==> forall i :: 0 <= i < |r| ==> r[i] >= 0.0
  {
  }
}

=== FILE: credit.dfy ===
/** Credits out of the pot: softmax weights over standardised log-scores with the violators
    removed, scaled to the integer pot, rounded by the largest-remainder method, violators
    forced back to zero, and a second allocation over the eligible participants when that
    forcing broke the total. */
module Credit {
  import opened Numeric
  import opened Sums
  import opened Indices
  import opened Softmax
  import opened Parameters
  import opened Remainder

  /** `z_i = (lnP_i - C) / D`: non-negative exactly at or above the centre, and in the same
      order as the log-scores. */
  function Standardized(lnP: seq<real>, c: real, d: real): (z: seq<real>)
    requires d > 0.0
    ensures |z| == |lnP|
    ensures forall i :: 0 <= i < |z| ==> (z[i] >= 0.0 <==> lnP[i] >= c)
    ensures forall i, j :: 0 <= i < |z| && 0 <= j < |z| ==> (z[i] <= z[j] <==> lnP[i] <= lnP[j])
  {
    var z := seq(|lnP|, i requires 0 <= i < |lnP| => (lnP[i] - c) / d);
    forall i | 0 <= i < |z|
      ensures z[i] >= 0.0 <==> lnP[i] >= c
    {
      DivideSign(lnP[i] - c, d);
    }
    forall i, j | 0 <= i < |z| && 0 <= j < |z|
      ensures z[i] <= z[j] <==> lnP[i] <= lnP[j]
    {
      DivideOrder(lnP[i] - c, lnP[j] - c, d);
    }
    z
  }

  /** The violators' softmax weights replaced by zero. */
  function ZeroViolatorWeights(w: seq<real>, violations: seq<bool>): (r: seq<real>)
    requires |w| == |violations|
    ensures |r| == |w|
    ensures forall i :: 0 <= i < |r| ==> r[i] == (if violations[i] then 0.0 else w[i])
  {
    seq(|w|, i requires 0 <= i < |w| => if violations[i] then 0.0 else w[i])
  }

  /** `creditW`: violators weigh nothing. With a non-negative exponential every weight is
      non-negative and the weights add up to one unless they are all zero; with a positive
      exponential and at least one non-violator they add up to one. */
  function CreditWeights(p: Params, z: seq<real>, violations: seq<bool>, exp: real -> real): (w: seq<real>)
    requires |z| == |violations|
    ensures |w| == |z|
    ensures forall i :: 0 <= i < |w| && violations[i] ==> w[i] == 0.0
    ensures NonNegative(exp) ==> forall i :: 0 <= i < |w| ==> w[i] >= 0.0
    ensures NonNegative(exp) ==> SumReal(w) == 1.0 || forall i :: 0 <= i < |w| ==> w[i] == 0.0
    ensures Positive(exp) && (exists i :: 0 <= i < |z| && !violations[i]) ==> SumReal(w) == 1.0
  {
    var sm := StableSoftmax(z, p.kCredit, exp);
    var zeroed := ZeroViolatorWeights(sm, violations);
    var total := SumReal(zeroed);
    CreditWeightFacts(zeroed, total, violations, exp, sm);
    if total > 0.0 then
      var w := Normalize(zeroed, total);
      DivideSelf(total);
      w
    else zeroed
  }

  lemma CreditWeightFacts(zeroed: seq<real>, total: real, violations: seq<bool>, exp: real -> real, sm: seq<real>)
    requires |zeroed| == |violations| == |sm| && total == SumReal(zeroed)
    requires forall i :: 0 <= i < |zeroed| ==> zeroed[i] == (if violations[i] then 0.0 else sm[i])
    requires NonNegative(exp) ==> forall i :: 0 <= i < |sm| ==> sm[i] >= 0.0
    requires Positive(exp) ==> forall i :: 0 <= i < |sm| ==> sm[i] > 0.0
    ensures NonNegative(exp) && total <= 0.0 ==> forall i :: 0 <= i < |zeroed| ==> zeroed[i] == 0.0
    ensures Positive(exp) && (exists i :: 0 <= i < |zeroed| && !violations[i]) ==> total > 0.0
  {
    if NonNegative(exp) && total <= 0.0 {
      SumRealZeroTerms(zeroed);
    }
    if Positive(exp) && (exists i :: 0 <= i < |zeroed| && !violations[i]) {
      var k :| 0 <= k < |zeroed| && !violations[k];
      SumRealAtLeastTerm(zeroed, k);
    }
  }

  /** `creditFloat_i = Pot * creditW_i`: the pot split in proportion to the weights. */
  function CreditFloats(pot: int, w: seq<real>): (cf: seq<real>)
    ensures |cf| == |w|
    ensures forall i :: 0 <= i < |w| ==> cf[i] == pot as real * w[i]
    ensures SumReal(cf) == pot as real * SumReal(w)
    ensures forall i :: 0 <= i < |w| && w[i] == 0.0 ==> cf[i] == 0.0
    ensures pot >= 0 ==> forall i :: 0 <= i < |w| && w[i] >= 0.0 ==> cf[i] >= 0.0
  {
    var cf := seq(|w|, i requires 0 <= i < |w| => pot as real * w[i]);
    SumRealAffine(w, cf, pot as real, 0.0);
    cf
  }

  /** Integer entries with the violators' entries replaced by zero. What is left adds up to
      exactly the non-violators' entries. */
  function ZeroViolators(xs: seq<int>, violations: seq<bool>): (r: seq<int>)
    requires |xs| == |violations|
    ensures |r| == |xs|
    ensures forall i :: 0 <= i < |r| ==> r[i] == (if violations[i] then 0 else xs[i])
    ensures Sum(r) == Sum(Gather(xs, Where(Not(violations))))
  {
    var r := seq(|xs|, i requires 0 <= i < |xs| => if violations[i] then 0 else xs[i]);
    ZeroViolatorsTotal(xs, violations, r);
    r
  }

  lemma ZeroViolatorsTotal(xs: seq<int>, violations: seq<bool>, r: seq<int>)
    requires |xs| == |violations| && |r| == |xs|
    requires forall i :: 0 <= i < |r| ==> r[i] == (if violations[i] then 0 else xs[i])
    ensures Sum(r) == Sum(Gather(xs, Where(Not(violations))))
  {
    var eligible := Where(Not(violations));
    forall j | 0 <= j < |eligible|
      ensures Gather(r, eligible)[j] == Gather(xs, eligible)[j]
    {
      assert Not(violations)[eligible[j]];
    }
    assert Gather(r, eligible) == Gather(xs, eligible);
    SumGatherWhere(r, Not(violations));
  }

  /** The non-violators' credit shares, in population order: the `j`-th is the share of the
      `j`-th non-violator, and together they carry all of the credit when the violators' shares
      are zero. */
  function EligibleShares(creditFloat: seq<real>, violations: seq<bool>): (r: seq<real>)
    requires |creditFloat| == |violations|
    ensures |r| == |Where(Not(violations))|
    ensures forall j :: 0 <= j < |r| ==> r[j] == creditFloat[Where(Not(violations))[j]]
    ensures (forall i :: 0 <= i < |creditFloat| && violations[i] ==> creditFloat[i] == 0.0) ==>
      SumReal(r) == SumReal(creditFloat)
  {
    var r := Gather(creditFloat, Where(Not(violations)));
    EligibleSharesTotal(creditFloat, violations);
    r
  }

  lemma EligibleSharesTotal(creditFloat: seq<real>, violations: seq<bool>)
    requires |creditFloat| == |violations|
    ensures (forall i :: 0 <= i < |creditFloat| && violations[i] ==> creditFloat[i] == 0.0) ==>
      SumReal(Gather(creditFloat, Where(Not(violations)))) == SumReal(creditFloat)
  {
    if forall i :: 0 <= i < |creditFloat| && violations[i] ==> creditFloat[i] == 0.0 {
      SumRealGatherWhere(creditFloat, Not(violations));
    }
  }

  /** `creditInt`: nobody gets a negative credit and violators get none, and every eligible
      participant gets at least the whole part of their credit share. The credits add up
      to the pot whenever some participant is not a violator and the floors of the eligible
      shares do not exceed the pot; when every participant is a violator they add up to zero,
      and the pot is left undistributed. */
  function CreditInts(pot: int, creditFloat: seq<real>, violations: seq<bool>): (r: seq<int>)
    requires |creditFloat| == |violations|
    ensures |r| == |violations|
    ensures forall i :: 0 <= i < |r| && violations[i] ==> r[i] == 0
    ensures forall i :: 0 <= i < |r| ==> r[i] >= 0
    ensures forall i :: 0 <= i < |r| && !violations[i] ==> r[i] >= FloorPart(creditFloat[i])
    ensures (forall i :: 0 <= i < |violations| ==> violations[i]) ==> Sum(r) == 0
    ensures ((exists i :: 0 <= i < |violations| && !violations[i])
             && Sum(Floors(EligibleShares(creditFloat, violations))) <= pot) ==> Sum(r) == pot
  {
    var first := ZeroViolators(AllocateByRemainder(pot, creditFloat), violations);
    AllViolatorsGetNothing(first, violations);
    if Sum(first) == pot then first
    else
      var r := Reallocated(pot, creditFloat, violations, first);
      AllViolatorsGetNothing(r, violations);
      r
  }

  /** The second allocation: the pot split again over the eligible participants alone and
      written over the first allocation, violators forced back to zero. Every eligible
      participant is overwritten, so nobody ends up negative and each gets at least the whole
      part of their share, and the result hands out the whole pot whenever someone is eligible
      and the floors of the eligible shares fit. */
  function Reallocated(pot: int, creditFloat: seq<real>, violations: seq<bool>, first: seq<int>): (r: seq<int>)
    requires |creditFloat| == |violations| == |first|
    ensures |r| == |violations|
    ensures forall i :: 0 <= i < |r| && violations[i] ==> r[i] == 0
    ensures forall i :: 0 <= i < |r| ==> r[i] >= 0
    ensures forall i :: 0 <= i < |r| && !violations[i] ==> r[i] >= FloorPart(creditFloat[i])
    ensures ((exists i :: 0 <= i < |violations| && !violations[i])
             && Sum(Floors(EligibleShares(creditFloat, violations))) <= pot) ==> Sum(r) == pot
  {
    var alloc := AllocateByRemainder(pot, EligibleShares(creditFloat, violations));
    var r := ZeroViolators(Scatter(first, Where(Not(violations)), alloc), violations);
    RepairSum(pot, creditFloat, violations, first, alloc, r);
    RepairNonNegative(first, violations, alloc, r);
    RepairFloors(pot, creditFloat, violations, first, alloc, r);
    r
  }

  /** Every eligible participant receives their entry of the second allocation, which is at
      least the whole part of their own credit share. */
  lemma RepairFloors(pot: int, creditFloat: seq<real>, violations: seq<bool>, first: seq<int>, alloc: seq<int>, r: seq<int>)
    requires |creditFloat| == |violations| == |first|
    requires alloc == AllocateByRemainder(pot, EligibleShares(creditFloat, violations))
    requires r == ZeroViolators(Scatter(first, Where(Not(violations)), alloc), violations)
    ensures forall i :: 0 <= i < |r| && !violations[i] ==> r[i] >= FloorPart(creditFloat[i])
  {
    var eligible := Where(Not(violations));
    var shares := EligibleShares(creditFloat, violations);
    var written := Scatter(first, eligible, alloc);
    forall i | 0 <= i < |r| && !violations[i]
      ensures r[i] >= FloorPart(creditFloat[i])
    {
      assert Not(violations)[i];
      var j :| 0 <= j < |eligible| && eligible[j] == i;
      assert written[eligible[j]] == alloc[j];
      assert shares[j] == creditFloat[i];
    }
  }

  /** Overwriting every eligible entry with a non-negative allocation and zeroing the rest
      leaves nothing negative. */
  lemma RepairNonNegative(first: seq<int>, violations: seq<bool>, alloc: seq<int>, r: seq<int>)
    requires |first| == |violations| && |alloc| == |Where(Not(violations))|
    requires forall j :: 0 <= j < |alloc| ==> alloc[j] >= 0
    requires r == ZeroViolators(Scatter(first, Where(Not(violations)), alloc), violations)
    ensures forall i :: 0 <= i < |r| ==> r[i] >= 0
  {
    var eligible := Where(Not(violations));
    var written := Scatter(first, eligible, alloc);
    forall i | 0 <= i < |r|
      ensures r[i] >= 0
    {
      if !violations[i] {
        assert Not(violations)[i];
        var j :| 0 <= j < |eligible| && eligible[j] == i;
        assert written[eligible[j]] == alloc[j];
      }
    }
  }

  lemma AllViolatorsGetNothing(r: seq<int>, violations: seq<bool>)
    requires |r| == |violations|
    requires forall i :: 0 <= i < |r| && violations[i] ==> r[i] == 0
    ensures (forall i :: 0 <= i < |violations| ==> violations[i]) ==> Sum(r) == 0
  {
    if forall i :: 0 <= i < |violations| ==> violations[i] {
      SumZeros(r);
    }
  }

  lemma RepairSum(pot: int, creditFloat: seq<real>, violations: seq<bool>, first: seq<int>, alloc: seq<int>, r: seq<int>)
    requires |creditFloat| == |violations| == |first|
    requires alloc == AllocateByRemainder(pot, EligibleShares(creditFloat, violations))
    requires r == ZeroViolators(Scatter(first, Where(Not(violations)), alloc), violations)
    ensures ((exists i :: 0 <= i < |violations| && !violations[i])
             && Sum(Floors(EligibleShares(creditFloat, violations))) <= pot) ==> Sum(r) == pot
  {
    if exists i :: 0 <= i < |violations| && !violations[i] {
      var eligible := Where(Not(violations));
      EligibleNonEmpty(violations);
      RepairWritesAllocation(first, violations, alloc, r);
      SumGatherWhere(r, Not(violations));
    }
  }

  lemma EligibleNonEmpty(violations: seq<bool>)
    requires exists i :: 0 <= i < |violations| && !violations[i]
    ensures |Where(Not(violations))| > 0
  {
    var k :| 0 <= k < |violations| && !violations[k];
    assert Not(violations)[k];
    assert k in Where(Not(violations));
  }

  lemma RepairWritesAllocation(first: seq<int>, violations: seq<bool>, alloc: seq<int>, r: seq<int>)
    requires |first| == |violations| && |alloc| == |Where(Not(violations))|
    requires r == ZeroViolators(Scatter(first, Where(Not(violations)), alloc), violations)
    ensures Gather(r, Where(Not(violations))) == alloc
    ensures forall i :: 0 <= i < |r| && !Not(violations)[i] ==> r[i] == 0
  {
    var eligible := Where(Not(violations));
    var written := Scatter(first, eligible, alloc);
    forall j | 0 <= j < |eligible|
      ensures r[eligible[j]] == alloc[j]
    {
      assert Not(violations)[eligible[j]];
      assert written[eligible[j]] == alloc[j];
    }
  }

  /** With non-negative weights that add up to one (or are all zero) and a non-negative pot,
      the credits hand out exactly the pot whenever someone is eligible. */
  lemma CreditsExhaustPot(pot: int, w: seq<real>, violations: seq<bool>)
    requires pot >= 0 && |w| == |violations|
    requires forall i :: 0 <= i < |w| ==> w[i] >= 0.0
    requires forall i :: 0 <= i < |w| && violations[i] ==> w[i] == 0.0
    requires SumReal(w) == 1.0 || forall i :: 0 <= i < |w| ==> w[i] == 0.0
    requires exists i :: 0 <= i < |violations| && !violations[i]
    ensures Sum(CreditInts(pot, CreditFloats(pot, w), violations)) == pot
  {
    var cf := CreditFloats(pot, w);
    CreditTotalWithinPot(pot, w, cf);
    EligibleFloorsWithinPot(pot, cf, violations);
    CreditIntsExhaust(pot, cf, violations);
  }

  /** The credits hand out exactly the pot when someone is eligible and the whole parts of the
      eligible shares fit into the pot. */
  lemma CreditIntsExhaust(pot: int, cf: seq<real>, violations: seq<bool>)
    requires |cf| == |violations|
    requires exists i :: 0 <= i < |violations| && !violations[i]
    requires Sum(Floors(EligibleShares(cf, violations))) <= pot
    ensures Sum(CreditInts(pot, cf, violations)) == pot
  {
  }

  /** The whole parts of the eligible shares never exceed the pot when no share is negative,
      the violators' shares are zero and all shares add up to at most the pot. */
  lemma EligibleFloorsWithinPot(pot: int, cf: seq<real>, violations: seq<bool>)
    requires |cf| == |violations| && SumReal(cf) <= pot as real
    requires forall i :: 0 <= i < |cf| ==> cf[i] >= 0.0
    requires forall i :: 0 <= i < |cf| && violations[i] ==> cf[i] == 0.0
    ensures Sum(Floors(EligibleShares(cf, violations))) <= pot
  {
    var floors := Sum(Floors(EligibleShares(cf, violations)));
    EligibleFloorsWithinTotal(cf, violations);
    assert floors as real <= pot as real;
  }

  /** Credit floats that add up to the pot scaled by the weights' total add up to at most the
      pot, since that total is one or every weight is zero. */
  lemma CreditTotalWithinPot(pot: int, w: seq<real>, cf: seq<real>)
    requires pot >= 0
    requires SumReal(w) == 1.0 || forall i :: 0 <= i < |w| ==> w[i] == 0.0
    requires cf == CreditFloats(pot, w)
    ensures SumReal(cf) <= pot as real
  {
    var sw := SumReal(w);
    if sw != 1.0 {
      SumRealZeros(w);
    }
    ScaledWithin(pot, sw);
  }

  /** A non-negative pot scaled by zero or one stays within the pot. */
  lemma ScaledWithin(pot: int, sw: real)
    requires pot >= 0 && (sw == 1.0 || sw == 0.0)
    ensures pot as real * sw <= pot as real
  {
  }

  /** When the violators' shares are zero and no share is negative, the whole parts of the
      eligible shares add up to at most the total of all shares. */
  lemma EligibleFloorsWithinTotal(cf: seq<real>, violations: seq<bool>)
    requires |cf| == |violations|
    requires forall i :: 0 <= i < |cf| ==> cf[i] >= 0.0
    requires forall i :: 0 <= i < |cf| && violations[i] ==> cf[i] == 0.0
    ensures Sum(Floors(EligibleShares(cf, violations))) as real <= SumReal(cf)
  {
    var eligible := Where(Not(violations));
    var shares := EligibleShares(cf, violations);
    var floors := Floors(shares);
    forall j | 0 <= j < |shares|
      ensures floors[j] as real <= shares[j]
    {
      assert shares[j] == cf[eligible[j]];
    }
    SumBelowReal(floors, shares);
  }
}

=== FILE: indices.dfy ===
/** Index lists over a population: the engine's `filter`-by-index lists, gathering the
    values at such a list, and writing values back through it (`S.forEach((i, j) => a[i] = v[j])`). */
module Indices {
  import opened Sums

  /** Every entry of `s` is a valid index into a sequence of length `n`. */
  predicate InBounds(s: seq<nat>, n: nat)
  {
    forall j :: 0 <= j < |s| ==> s[j] < n
  }

  /** No index occurs twice. */
  predicate Distinct(s: seq<nat>)
  {
    forall a, b :: 0 <= a < b < |s| ==> s[a] != s[b]
  }

  /** Pointwise negation of a flag list. */
  function Not(flags: seq<bool>): (r: seq<bool>)
    ensures |r| == |flags|
    ensures forall i :: 0 <= i < |r| ==> r[i] != flags[i]
  {
    seq(|flags|, i requires 0 <= i < |flags| => !flags[i])
  }

  function WhereFrom(flags: seq<bool>, k: nat): (r: seq<nat>)
    requires k <= |flags|
    ensures forall j :: 0 <= j < |r| ==> k <= r[j] < |flags| && flags[r[j]]
    ensures forall a, b :: 0 <= a < b < |r| ==> r[a] < r[b]
    decreases |flags| - k
  {
    if k == |flags| then []
    else if flags[k] then [k] + WhereFrom(flags, k + 1)
    else WhereFrom(flags, k + 1)
  }

  lemma {:induction false} WhereFromComplete(flags: seq<bool>, k: nat)
    requires k <= |flags|
    ensures forall i :: k <= i < |flags| && flags[i] ==> i in WhereFrom(flags, k)
    decreases |flags| - k
  {
    if k < |flags| {
      WhereFromComplete(flags, k + 1);
    }
  }

  /** The indices whose flag is set, in ascending order, each exactly once. */
  function Where(flags: seq<bool>): (r: seq<nat>)
    ensures InBounds(r, |flags|) && Distinct(r)
    ensures forall i :: 0 <= i < |flags| ==> (flags[i] <==> i in r)
    ensures forall j :: 0 <= j < |r| ==> flags[r[j]]
  {
    WhereFromComplete(flags, 0);
    WhereFrom(flags, 0)
  }

  /** The values at the listed indices (`S.map((i) => xs[i])`). */
  function Gather<T>(xs: seq<T>, s: seq<nat>): (r: seq<T>)
    requires InBounds(s, |xs|)
    ensures |r| == |s|
  {
    seq(|s|, j requires 0 <= j < |s| => xs[s[j]])
  }

  /** Writes `vals[j]` at index `s[j]`, in list order, leaving every other entry alone. */
  function Scatter<T>(base: seq<T>, s: seq<nat>, vals: seq<T>): (r: seq<T>)
    requires |s| == |vals| && InBounds(s, |base|)
    ensures |r| == |base|
    ensures forall i :: 0 <= i < |base| && i !in s ==> r[i] == base[i]
    ensures Distinct(s) ==> forall j :: 0 <= j < |s| ==> r[s[j]] == vals[j]
    decreases |s|
  {
    if |s| == 0 then base
    else
      var rest := Scatter(base[s[0] := vals[0]], s[1..], vals[1..]);
      assert forall i :: i in s[1..] ==> i in s;
      assert Distinct(s) ==> s[0] !in s[1..];
      rest
  }

  /** Reading back what was written through a repetition-free index list. */
  lemma GatherScatter<T>(base: seq<T>, s: seq<nat>, vals: seq<T>)
    requires |s| == |vals| && InBounds(s, |base|) && Distinct(s)
    ensures Gather(Scatter(base, s, vals), s) == vals
  {
  }

  /** Gathering through `[k] + rest` puts `xs[k]` in front of the gather through `rest`. */
  lemma GatherCons<T>(xs: seq<T>, k: nat, rest: seq<nat>)
    requires k < |xs| && InBounds(rest, |xs|)
    ensures InBounds([k] + rest, |xs|)
    ensures Gather(xs, [k] + rest) == [xs[k]] + Gather(xs, rest)
  {
  }

  lemma {:induction false} SumGatherWhereFrom(xs: seq<int>, flags: seq<bool>, k: nat)
    requires |xs| == |flags| && k <= |flags|
    requires forall i :: k <= i < |xs| && !flags[i] ==> xs[i] == 0
    ensures Sum(Gather(xs, WhereFrom(flags, k))) == Sum(xs[k..])
    decreases |flags| - k
  {
    if k < |flags| {
      var rest := WhereFrom(flags, k + 1);
      SumGatherWhereFrom(xs, flags, k + 1);
      var tail := xs[k..];
      assert tail[1..] == xs[k + 1..];
      assert Sum(tail) == xs[k] + Sum(xs[k + 1..]);
      if flags[k] {
        assert WhereFrom(flags, k) == [k] + rest;
        GatherCons(xs, k, rest);
        SumAppend([xs[k]], Gather(xs, rest));
      } else {
        assert WhereFrom(flags, k) == rest;
      }
    }
  }

  /** When every unflagged entry is zero, the flagged entries carry the whole sum. */
  lemma SumGatherWhere(xs: seq<int>, flags: seq<bool>)
    requires |xs| == |flags|
    requires forall i :: 0 <= i < |xs| && !flags[i] ==> xs[i] == 0
    ensures Sum(Gather(xs, Where(flags))) == Sum(xs)
  {
    SumGatherWhereFrom(xs, flags, 0);
    assert xs[0..] == xs;
  }

  lemma {:induction false} SumRealGatherWhereFrom(xs: seq<real>, flags: seq<bool>, k: nat)
    requires |xs| == |flags| && k <= |flags|
    requires forall i :: k <= i < |xs| && !flags[i] ==> xs[i] == 0.0
    ensures SumReal(Gather(xs, WhereFrom(flags, k))) == SumReal(xs[k..])
    decreases |flags| - k
  {
    if k < |flags| {
      var rest := WhereFrom(flags, k + 1);
      SumRealGatherWhereFrom(xs, flags, k + 1);
      var tail := xs[k..];
      assert tail[1..] == xs[k + 1..];
      assert SumReal(tail) == xs[k] + SumReal(xs[k + 1..]);
      if flags[k] {
        assert WhereFrom(flags, k) == [k] + rest;
        GatherCons(xs, k, rest);
        SumRealAppend([xs[k]], Gather(xs, rest));
      } else {
        assert WhereFrom(flags, k) == rest;
      }
    }
  }

  /** Real-valued counterpart of `SumGatherWhere`. */
  lemma SumRealGatherWhere(xs: seq<real>, flags: seq<bool>)
    requires |xs| == |flags|
    requires forall i :: 0 <= i < |xs| && !flags[i] ==> xs[i] == 0.0
    ensures SumReal(Gather(xs, Where(flags))) == SumReal(xs)
  {
    SumRealGatherWhereFrom(xs, flags, 0);
    assert xs[0..] == xs;
  }
}

=== FILE: leaders.dfy ===
/** Leader detection: every participant at the maximum log-score leads, unless the whole
    population ties, in which case only the first participant at the maximum does. */
module Leaders {
  import opened Numeric

  /** Every log-score is the same. */
  predicate AllTied(lnP: seq<real>)
  {
    forall i, j :: 0 <= i < |lnP| && 0 <= j < |lnP| ==> lnP[i] == lnP[j]
  }

  /** Which entries equal `m`. */
  function Equals(xs: seq<real>, m: real): (r: seq<bool>)
    ensures |r| == |xs|
    ensures forall i :: 0 <= i < |xs| ==> (r[i] <==> xs[i] == m)
  {
    seq(|xs|, i requires 0 <= i < |xs| => xs[i] == m)
  }

  /** The leader flags. There is a leader in any non-empty population and every leader is at
      the maximum. Without a full tie the leaders are exactly the participants at the
      maximum; with one, only the first participant leads. With two or more participants at
      least one is not a leader, so somebody pays into the pot. */
  function LeaderFlags(lnP: seq<real>): (r: seq<bool>)
    ensures |r| == |lnP|
    ensures |lnP| > 0 ==> exists i :: 0 <= i < |r| && r[i]
    ensures forall i :: 0 <= i < |r| && r[i] ==> lnP[i] == MaxOf(lnP)
    ensures !AllTied(lnP) ==> forall i :: 0 <= i < |r| ==> (r[i] <==> lnP[i] == MaxOf(lnP))
    ensures AllTied(lnP) ==> forall i :: 0 <= i < |r| ==> (r[i] <==> i == 0)
    ensures |lnP| >= 2 ==> exists i :: 0 <= i < |r| && !r[i]
  {
    if |lnP| == 0 then []
    else
      var m := MaxOf(lnP);
      var atMax := Equals(lnP, m);
      if Count(atMax) == |lnP| then
        assert forall i :: 0 <= i < |lnP| ==> lnP[i] == m;
        assert AllTied(lnP);
        var first := IndexOf(lnP, m);
        assert first == 0;
        var r := seq(|lnP|, i requires 0 <= i < |lnP| => i == first);
        assert r[0];
        assert |lnP| >= 2 ==> !r[1];
        r
      else
        var k :| 0 <= k < |lnP| && lnP[k] == m;
        assert atMax[k];
        var j :| 0 <= j < |lnP| && !atMax[j];
        assert lnP[j] != lnP[k];
        atMax
  }

  /** The number of leaders: at least one, and exactly one under a full tie. */
  lemma LeaderCount(lnP: seq<real>)
    requires |lnP| > 0
    ensures Count(LeaderFlags(lnP)) >= 1
    ensures AllTied(lnP) ==> Count(LeaderFlags(lnP)) == 1
  {
    var r := LeaderFlags(lnP);
    var k :| 0 <= k < |r| && r[k];
    if AllTied(lnP) {
      assert r[0];
      assert forall i :: 0 <= i < |r[1..]| ==> !r[1..][i];
    }
  }
}

=== FILE: median.dfy ===
/** The `median` helper and the robust statistics the engine derives from it
    (centre `C`, median absolute deviation, and the floored scale `D`). */
module Medians {
  import opened Outcomes
  import opened Numeric
  import opened Sorting

  /** Middle element of the ascending sort for an odd length, mean of the two middle elements
      for an even length; no value (the engine's `NaN`) for an empty list. */
  function Median(xs: seq<real>): (r: Option<real>)
    ensures r.None? <==> |xs| == 0
  {
    Middle(SortAsc(xs))
  }

  /** The middle of an already sorted list: a value exactly when the list is non-empty, and
      then one between its first and last element. */
  function Middle(s: seq<real>): (r: Option<real>)
    ensures r.None? <==> |s| == 0
    ensures SortedAsc(s) && |s| > 0 ==> s[0] <= r.value <= s[|s| - 1]
  {
    var n := |s|;
    if n == 0 then None
    else if n % 2 == 1 then Some(s[n / 2])
    else Some((s[n / 2 - 1] + s[n / 2]) / 2.0)
  }

  /** The median is read off ANY ascending arrangement of the same elements. */
  lemma MedianOfSorted(xs: seq<real>, ys: seq<real>)
    requires SortedAsc(ys) && multiset(ys) == multiset(xs)
    requires |xs| > 0
    ensures |ys| == |xs|
    ensures |xs| % 2 == 1 ==> Median(xs) == Some(ys[|xs| / 2])
    ensures |xs| % 2 == 0 ==> Median(xs) == Some((ys[|xs| / 2 - 1] + ys[|xs| / 2]) / 2.0)
  {
    SortedUnique(SortAsc(xs), ys);
  }

  /** Reordering the input never changes the median. */
  lemma MedianPermutationInvariant(xs: seq<real>, ys: seq<real>)
    requires multiset(xs) == multiset(ys)
    ensures Median(xs) == Median(ys)
  {
    SortAscPermutation(xs, ys);
  }

  /** A median of values that all lie in `[lo, hi]` lies there too. */
  lemma MedianBetween(xs: seq<real>, lo: real, hi: real)
    requires |xs| > 0
    requires forall i :: 0 <= i < |xs| ==> lo <= xs[i] <= hi
    ensures lo <= Median(xs).value <= hi
  {
    var s := SortAsc(xs);
    forall k | 0 <= k < |s|
      ensures lo <= s[k] <= hi
    {
      assert s[k] in multiset(xs);
      var i :| 0 <= i < |xs| && xs[i] == s[k];
    }
    assert Median(xs) == Middle(s);
  }

  /** The median of a non-empty list lies between its least and greatest element. */
  lemma MedianWithinRange(xs: seq<real>)
    requires |xs| > 0
    ensures MinOf(xs) <= Median(xs).value <= MaxOf(xs)
  {
    MedianBetween(xs, MinOf(xs), MaxOf(xs));
  }

  /** Absolute deviations `|x_i - c|` from a centre. */
  function Deviations(xs: seq<real>, c: real): (dev: seq<real>)
    ensures |dev| == |xs|
    ensures forall i :: 0 <= i < |xs| ==> dev[i] >= 0.0 && (dev[i] == xs[i] - c || dev[i] == c - xs[i])
  {
    seq(|xs|, i requires 0 <= i < |xs| => Abs(xs[i] - c))
  }

  /** Deviations from a centre inside `[lo, hi]` of values inside `[lo, hi]` are at most
      `hi - lo`. */
  lemma DeviationsBounded(xs: seq<real>, c: real, lo: real, hi: real)
    requires lo <= c <= hi
    requires forall i :: 0 <= i < |xs| ==> lo <= xs[i] <= hi
    ensures forall i :: 0 <= i < |xs| ==> 0.0 <= Deviations(xs, c)[i] <= hi - lo
  {
  }

  /** Centre, median absolute deviation, and scale of a population of log-scores. */
  datatype Stats = Stats(center: real, mad: real, scale: real)

  /** The normal-consistency factor applied to the median absolute deviation. */
  const MadFactor: real := 1.4826

  /** `C = median(lnP)`, `MAD = median(|lnP_i - C|)`, `D = max(1.4826 * MAD, Dln_min)`.
      The centre is the median of the scores and the deviation is the median of the absolute
      deviations from that centre; the centre lies within the scores; the deviation is
      non-negative and never exceeds the spread of the scores; the scale respects its floor. */
  function RobustStats(lnPs: seq<real>, dlnMin: real): (r: Stats)
    requires |lnPs| > 0
    ensures Median(lnPs) == Some(r.center)
    ensures Median(Deviations(lnPs, r.center)) == Some(r.mad)
    ensures MinOf(lnPs) <= r.center <= MaxOf(lnPs)
    ensures 0.0 <= r.mad <= MaxOf(lnPs) - MinOf(lnPs)
    ensures r.scale >= dlnMin && r.scale >= MadFactor * r.mad
    ensures r.scale == dlnMin || r.scale == MadFactor * r.mad
  {
    var c := Median(lnPs).value;
    MedianWithinRange(lnPs);
    var lo, hi := MinOf(lnPs), MaxOf(lnPs);
    var dev := Deviations(lnPs, c);
    DeviationsBounded(lnPs, c, lo, hi);
    var mad := Median(dev).value;
    MedianBetween(dev, 0.0, hi - lo);
    Stats(c, mad, Max(MadFactor * mad, dlnMin))
  }
}

=== FILE: numeric.dfy ===
/** Scalar helpers of the engine: the `Math.max`/`Math.min` family, `clamp`, `roundInt`,
    the maximum and minimum of a list, `indexOf`, and counting flags. */
module Numeric {

  function Max(a: real, b: real): real
  {
    if a >= b then a else b
  }

  function Min(a: real, b: real): real
  {
    if a <= b then a else b
  }

  function Abs(x: real): real
  {
    if x >= 0.0 then x else -x
  }

  /** `clamp(x, lo, hi) = min(hi, max(lo, x))`: for an ordered interval the result lies
      inside it, is `x` itself when `x` already does, and is the nearer end otherwise. */
  function Clamp(x: real, lo: real, hi: real): (r: real)
    ensures lo <= hi ==> lo <= r <= hi
    ensures lo <= x <= hi ==> r == x
    ensures x < lo && lo <= hi ==> r == lo
    ensures x > hi ==> r == hi
    ensures hi < lo ==> r == hi
  {
    Min(hi, Max(lo, x))
  }

  /** `Math.round`: the nearest integer, halves rounded upward. */
  function RoundInt(x: real): (r: int)
    ensures r as real - 0.5 <= x < r as real + 0.5
    ensures x >= 0.0 ==> r >= 0
  {
    (x + 0.5).Floor
  }

  /** Rounding never goes past an integral bound that the value respects. */
  lemma RoundIntBelowIntegralBound(x: real, c: int)
    requires x <= c as real
    ensures RoundInt(x) <= c
  {
  }

  /** `Math.max(...s)` for a non-empty list: an element of the list that no element exceeds. */
  function MaxOf(s: seq<real>): (m: real)
    requires |s| > 0
    ensures forall i :: 0 <= i < |s| ==> s[i] <= m
    ensures exists i :: 0 <= i < |s| && s[i] == m
  {
    if |s| == 1 then s[0]
    else
      var rest := MaxOf(s[1..]);
      assert forall i :: 1 <= i < |s| ==> s[i] == s[1..][i - 1];
      if s[0] >= rest then s[0] else rest
  }

  /** `Math.min(...s)` for a non-empty list: an element of the list no element falls below. */
  function MinOf(s: seq<real>): (m: real)
    requires |s| > 0
    ensures forall i :: 0 <= i < |s| ==> m <= s[i]
    ensures exists i :: 0 <= i < |s| && s[i] == m
  {
    if |s| == 1 then s[0]
    else
      var rest := MinOf(s[1..]);
      assert forall i :: 1 <= i < |s| ==> s[i] == s[1..][i - 1];
      if s[0] <= rest then s[0] else rest
  }

  /** `Array.prototype.indexOf`: the first position holding `x`, or -1 when there is none. */
  function IndexOf(s: seq<real>, x: real): (r: int)
    ensures -1 <= r < |s|
    ensures r == -1 <==> forall i :: 0 <= i < |s| ==> s[i] != x
    ensures r >= 0 ==> s[r] == x && forall i :: 0 <= i < r ==> s[i] != x
  {
    if |s| == 0 then -1
    else if s[0] == x then 0
    else
      var rest := IndexOf(s[1..], x);
      assert forall i :: 1 <= i < |s| ==> s[i] == s[1..][i - 1];
      if rest == -1 then -1 else rest + 1
  }

  /** Number of set flags (`filter(Boolean).length`). */
  function Count(flags: seq<bool>): (c: nat)
    ensures c <= |flags|
    ensures c == |flags| <==> forall i :: 0 <= i < |flags| ==> flags[i]
    ensures c == 0 <==> forall i :: 0 <= i < |flags| ==> !flags[i]
  {
    if |flags| == 0 then 0
    else
      var rest := Count(flags[1..]);
      assert forall i :: 1 <= i < |flags| ==> flags[i] == flags[1..][i - 1];
      (if flags[0] then 1 else 0) + rest
  }

  /** Dividing by a positive number keeps the sign. */
  lemma DivideSign(a: real, d: real)
    requires d > 0.0
    ensures a / d >= 0.0 <==> a >= 0.0
  {
    assert a == (a / d) * d;
  }

  /** Dividing by a positive number keeps the order. */
  lemma DivideOrder(a: real, b: real, d: real)
    requires d > 0.0
    ensures a / d <= b / d <==> a <= b
  {
    assert b / d - a / d == (b - a) / d;
    DivideSign(b - a, d);
  }

  lemma DivideSelf(t: real)
    requires t > 0.0
    ensures t / t == 1.0
  {
  }

  /** Multiplying by a non-negative number keeps the order. */
  lemma MultiplyMonotone(k: real, a: real, b: real)
    requires k >= 0.0 && a <= b
    ensures k * a <= k * b
  {
    assert k * b - k * a == k * (b - a);
  }
}

=== FILE: outcomes.dfy ===
/** Failure-carrying values used where the engine has an error path or an undefined result. */
module Outcomes {

  /** A value that may be missing (the engine's `NaN` for an empty median). */
  datatype Option<+T> = None | Some(value: T)

  /** A computed value, or the reason the computation refused to run. */
  datatype Result<+T, +E> = Success(value: T) | Failure(error: E)
}

=== FILE: params.dfy ===
/** The engine's fixed parameter set, as an immutable value passed to every stage. */
module Parameters {

  datatype Params = Params(
    capQ: real,        // per-settlement cap on a contribution (CAP_Q)
    capY: real,        // cumulative yearly cap on contributions (CAP_Y)
    potTarget: real,   // amount the non-leaders are asked to pay in together
    scoreA: real,      // exponent of the return term of the score
    scoreC: real,      // exponent of the drawdown discount of the score
    mdd0: real,        // drawdown floor added to the Calmar denominator
    kContrib: real,    // contribution softmax temperature
    uClip: real,       // clip on the re-zeroed distance
    alpha: real,       // uniform-mixing weight of the contribution split
    kCredit: real,     // credit softmax temperature
    dlnMin: real,      // floor on the robust scale D
    leverageMax: real  // leverage above which a participant is a violator
  )

  /** The constants of the engine. */
  const Defaults: Params := Params(100.0, 500.0, 500.0, 1.2, 2.0, 0.05, 0.4, 6.0, 0.05, 1.0, 0.15, 2.0)

  /** What the stages rely on: non-negative caps, target, temperatures and clip, a positive
      drawdown floor and scale floor, and a mixing weight between 0 and 1. */
  predicate Valid(p: Params)
  {
    && p.capQ >= 0.0 && p.capY >= 0.0 && p.potTarget >= 0.0
    && p.mdd0 > 0.0 && p.dlnMin > 0.0
    && p.kContrib >= 0.0 && p.kCredit >= 0.0 && p.uClip >= 0.0
    && 0.0 <= p.alpha <= 1.0
  }

  /** The engine's own constants meet what the stages rely on. */
  lemma DefaultsValid()
    ensures Valid(Defaults)
  {
  }
}

=== FILE: remainder.dfy ===
/** `allocateIntegersByRemainder`: the largest-remainder method. Every non-negative share is
    floored, and the shortfall to the integer total is handed out one unit at a time in
    descending order of fractional remainder, starting over at the front of that order while
    units are left. */
module Remainder {
  import opened Sums
  import opened Numeric
  import opened Indices
  import opened Sorting

  /** `floor(max(0, x))`: the unit count a share is sure to receive. */
  function FloorPart(x: real): (f: int)
    ensures f >= 0
    ensures f as real <= Max(0.0, x) < f as real + 1.0
  {
    Max(0.0, x).Floor
  }

  /** The fractional remainder `max(0, x) - floor(max(0, x))`, in `[0, 1)`. */
  function FracPart(x: real): (r: real)
    ensures 0.0 <= r < 1.0
    ensures FloorPart(x) as real + r == Max(0.0, x)
  {
    Max(0.0, x) - FloorPart(x) as real
  }

  function Floors(xs: seq<real>): (r: seq<int>)
    ensures |r| == |xs|
    ensures forall i :: 0 <= i < |xs| ==> r[i] == FloorPart(xs[i])
  {
    seq(|xs|, i requires 0 <= i < |xs| => FloorPart(xs[i]))
  }

  function Fracs(xs: seq<real>): (r: seq<real>)
    ensures |r| == |xs|
    ensures forall i :: 0 <= i < |xs| ==> r[i] == FracPart(xs[i])
  {
    seq(|xs|, i requires 0 <= i < |xs| => FracPart(xs[i]))
  }

  /** The hand-out loop: while units remain and the cursor is inside `order`, give one unit to
      `order[idx]` and advance, returning to the front when the end is reached with units left.
      It only ever adds, and with a non-empty order and the
      cursor inside it hands out every remaining unit. */
  function Distribute(out: seq<int>, order: seq<nat>, idx: nat, remain: int): (r: seq<int>)
    requires InBounds(order, |out|)
    ensures |r| == |out|
    ensures forall i :: 0 <= i < |out| ==> r[i] >= out[i]
    ensures |order| > 0 && (remain > 0 ==> idx < |order|) ==>
      Sum(r) == Sum(out) + (if remain > 0 then remain else 0)
    decreases if remain > 0 then remain else 0
  {
    if remain <= 0 || idx >= |order| then out
    else
      var out' := out[order[idx] := out[order[idx]] + 1];
      var next := if idx + 1 >= |order| && remain - 1 > 0 then 0 else idx + 1;
      SumUpdate(out, order[idx], 1);
      Distribute(out', order, next, remain - 1)
  }

  /** Without a wrap-around, exactly the entries at `order[idx..idx + remain]` gain one unit. */
  lemma {:induction false} DistributeOnce(out: seq<int>, order: seq<nat>, idx: nat, remain: int, part: seq<nat>)
    requires InBounds(order, |out|) && Distinct(order)
    requires 0 <= remain && idx + remain <= |order|
    requires part == order[idx..idx + remain]
    ensures forall i :: 0 <= i < |out| ==>
      Distribute(out, order, idx, remain)[i] == out[i] + (if i in part then 1 else 0)
    decreases remain
  {
    if remain > 0 {
      var out' := out[order[idx] := out[order[idx]] + 1];
      assert idx + 1 < |order| || remain - 1 == 0;
      var d := Distribute(out', order, idx + 1, remain - 1);
      assert Distribute(out, order, idx, remain) == d;
      var rest := order[idx + 1..idx + remain];
      DistributeOnce(out', order, idx + 1, remain - 1, rest);
      assert part == [order[idx]] + rest;
      assert order[idx] !in rest;
      OneMoreUnit(out, order[idx], out', rest, part, d);
    }
  }

  /** Handing one unit to `k` before a round over `rest` is a round over `[k] + rest`. */
  lemma OneMoreUnit(out: seq<int>, k: nat, out': seq<int>, rest: seq<nat>, all: seq<nat>, d: seq<int>)
    requires k < |out| && out' == out[k := out[k] + 1]
    requires all == [k] + rest && k !in rest
    requires |d| == |out|
    requires forall i :: 0 <= i < |out| ==> d[i] == out'[i] + (if i in rest then 1 else 0)
    ensures forall i :: 0 <= i < |out| ==> d[i] == out[i] + (if i in all then 1 else 0)
  {
    forall i | 0 <= i < |out|
      ensures d[i] == out[i] + (if i in all then 1 else 0)
    {
      assert (i in all) == (i == k || i in rest);
    }
  }

  /** The facts about the hand-out, for one that starts at the front of the order. */
  lemma DistributeFromStart(out: seq<int>, order: seq<nat>, remain: int)
    requires InBounds(order, |out|) && Distinct(order)
    ensures forall i :: 0 <= i < |out| ==> Distribute(out, order, 0, remain)[i] >= out[i]
    ensures |order| > 0 ==> Sum(Distribute(out, order, 0, remain)) == Sum(out) + (if remain > 0 then remain else 0)
    ensures 0 <= remain <= |order| ==> forall i :: 0 <= i < |out| ==>
      Distribute(out, order, 0, remain)[i] == out[i] + (if i in order[0..remain] then 1 else 0)
  {
    if 0 <= remain <= |order| {
      DistributeOnce(out, order, 0, remain, order[0..remain]);
    }
  }

  /** The order in which the shortfall is handed out: descending remainder, ties by index. */
  function RemainderOrder(xs: seq<real>): (order: seq<nat>)
    ensures |order| == |xs| && InBounds(order, |xs|) && Distinct(order)
    ensures forall i :: 0 <= i < |xs| ==> i in order
    ensures SortedDescBy(Fracs(xs), order) && StableBy(Fracs(xs), order)
  {
    DescendingOrder(Fracs(xs))
  }

  /** Largest-remainder allocation of the integer `total` over the shares `xs`.
      Every entry is at least its floor (so never negative). The total is met exactly when
      there is at least one share and the floors do not already exceed it; when they do, the
      floors are returned unchanged (and overshoot), and an empty list gets nothing. A shortfall
      no larger than the number of shares gives each entry its floor or its floor plus one. */
  function AllocateByRemainder(total: int, xs: seq<real>): (r: seq<int>)
    ensures |r| == |xs|
    ensures forall i :: 0 <= i < |xs| ==> r[i] >= FloorPart(xs[i]) && r[i] >= 0
    ensures |xs| > 0 && total >= Sum(Floors(xs)) ==> Sum(r) == total
    ensures total <= Sum(Floors(xs)) ==> r == Floors(xs)
    ensures total < Sum(Floors(xs)) ==> Sum(r) > total
    ensures |xs| == 0 ==> r == [] && Sum(r) == 0
    ensures total - Sum(Floors(xs)) <= |xs| ==>
      forall i :: 0 <= i < |xs| ==> r[i] == FloorPart(xs[i]) || r[i] == FloorPart(xs[i]) + 1
  {
    var base := Floors(xs);
    var order := RemainderOrder(xs);
    var remain := total - Sum(base);
    DistributeFromStart(base, order, remain);
    Distribute(base, order, 0, remain)
  }

  /** Which entries receive the extra unit, when the shortfall `k` is between 0 and the number
      of shares: exactly those among the first `k` of the remainder order. */
  lemma AllocationExtras(total: int, xs: seq<real>)
    requires 0 <= total - Sum(Floors(xs)) <= |xs|
    ensures forall i :: 0 <= i < |xs| ==>
      ((AllocateByRemainder(total, xs)[i] == FloorPart(xs[i]) + 1) <==>
       (i in RemainderOrder(xs)[..total - Sum(Floors(xs))]))
  {
    var remain := total - Sum(Floors(xs));
    DistributeOnce(Floors(xs), RemainderOrder(xs), 0, remain, RemainderOrder(xs)[..remain]);
  }

  /** The extra units go to the largest remainders: an entry that received one never has a
      smaller remainder than an entry that did not, and on equal remainders the earlier index
      is served first. */
  lemma LargestRemaindersWin(total: int, xs: seq<real>, i: int, j: int)
    requires 0 <= total - Sum(Floors(xs)) <= |xs|
    requires 0 <= i < |xs| && 0 <= j < |xs|
    requires AllocateByRemainder(total, xs)[i] == FloorPart(xs[i]) + 1
    requires AllocateByRemainder(total, xs)[j] == FloorPart(xs[j])
    ensures FracPart(xs[i]) >= FracPart(xs[j])
    ensures FracPart(xs[i]) == FracPart(xs[j]) ==> i < j
  {
    var k := total - Sum(Floors(xs));
    var order := RemainderOrder(xs);
    AllocationExtras(total, xs);
    assert i in order[..k];
    assert j !in order[..k];
    var a :| 0 <= a < k && order[a] == i;
    assert j in order;
    var b :| 0 <= b < |order| && order[b] == j;
    assert a < b;
  }
}

=== FILE: score.dfy ===
/** `computeP`: annualised return, Calmar ratio and composite score of one participant.
    `Math.pow` is a parameter of the model. */
module Scoring {
  import opened Numeric
  import opened Parameters

  datatype Score = Score(ann: real, calmar: real, p: real)

  /** A power function that is positive on positive bases, as the true one is. */
  ghost predicate PowPositive(pow: (real, real) -> real)
  {
    forall b, e :: b > 0.0 ==> pow(b, e) > 0.0
  }

  /** A power function that does not decrease in a positive base for a positive exponent. */
  ghost predicate PowMonotone(pow: (real, real) -> real)
  {
    forall a, b, e :: 0.0 < a <= b && e > 0.0 ==> pow(a, e) <= pow(b, e)
  }

  /** `base = max(0.2, 1 + max(-0.9, Calmar))`: at least 0.2, and it follows the Calmar
      ratio above that floor. The inner clamp at -0.9 never matters, because the outer floor
      already covers every Calmar ratio it would raise. */
  function ReturnBase(calmar: real): (b: real)
    ensures b >= 0.2
    ensures b == Max(0.2, 1.0 + calmar)
  {
    var calmarAdj := Max(-0.9, calmar);
    Max(0.2, 1.0 + calmarAdj)
  }

  /** `FD = max(0.3, 1 - 0.9 * MDD)`: a drawdown discount between 0.3 and 1 for a drawdown of
      at least zero. */
  function Fragility(mdd: real): (fd: real)
    ensures fd >= 0.3
    ensures mdd >= 0.0 ==> fd <= 1.0
  {
    Max(0.3, 1.0 - 0.9 * mdd)
  }

  /** The drawdown discount never grows as the drawdown grows. */
  lemma FragilityMonotone(m1: real, m2: real)
    requires m1 <= m2
    ensures Fragility(m2) <= Fragility(m1)
  {
  }

  /** Score of one participant: `Ann = (1 + R)^annPower - 1`, `Calmar = Ann / (MDD + mdd0)`,
      `P = base^score_a * FD^score_c`. The Calmar ratio carries the annualised return over the
      drawdown, and with a positive power function the score is positive, so its logarithm
      exists. */
  function ComputeP(r: real, mdd: real, annPower: real, prm: Params, pow: (real, real) -> real): (s: Score)
    requires mdd >= 0.0 && prm.mdd0 > 0.0
    ensures s.calmar * (mdd + prm.mdd0) == s.ann
    ensures PowPositive(pow) ==> s.p > 0.0
  {
    var ann := pow(1.0 + r, annPower) - 1.0;
    var calmar := ann / (mdd + prm.mdd0);
    var base := ReturnBase(calmar);
    var fd := Fragility(mdd);
    Score(ann, calmar, pow(base, prm.scoreA) * pow(fd, prm.scoreC))
  }

  /** A higher return at the same drawdown never gives a lower score (with a positive,
      base-monotone power function, a positive annualisation exponent and a positive return
      exponent; returns are above -100%). */
  lemma ScoreMonotoneInReturn(r1: real, r2: real, mdd: real, annPower: real, prm: Params, pow: (real, real) -> real)
    requires PowPositive(pow) && PowMonotone(pow)
    requires -1.0 < r1 <= r2 && mdd >= 0.0 && prm.mdd0 > 0.0
    requires annPower > 0.0 && prm.scoreA > 0.0
    ensures ComputeP(r1, mdd, annPower, prm, pow).p <= ComputeP(r2, mdd, annPower, prm, pow).p
  {
    var d := mdd + prm.mdd0;
    var ann1 := pow(1.0 + r1, annPower) - 1.0;
    var ann2 := pow(1.0 + r2, annPower) - 1.0;
    assert ann1 <= ann2;
    assert ann1 / d <= ann2 / d by {
      assert ann2 / d - ann1 / d == (ann2 - ann1) / d;
    }
    var b1, b2 := ReturnBase(ann1 / d), ReturnBase(ann2 / d);
    assert b1 <= b2;
    var x1, x2 := pow(b1, prm.scoreA), pow(b2, prm.scoreA);
    var f := pow(Fragility(mdd), prm.scoreC);
    assert x1 <= x2 && f > 0.0;
    assert x1 * f <= x2 * f by {
      assert x2 * f - x1 * f == (x2 - x1) * f;
    }
  }
}

=== FILE: settlement.dfy ===
/** `calculate`: one settlement of a population. Scores and log-scores, robust centre and
    scale, leaders, contributions with caps and the leverage override, the integer pot,
    credits, and each participant's net amount and after-state. `Math.pow`, `Math.log` and
    `Math.exp` are parameters. */
module Settlement {
  import opened Outcomes
  import opened Numeric
  import opened Sums
  import opened Indices
  import opened Softmax
  import opened Parameters
  import opened Scoring
  import opened Medians
  import opened Leaders
  import opened Contribution
  import opened Credit
  import opened Remainder

  /** One validated input row: return, maximum drawdown, leverage, and year-to-date
      contribution. */
  datatype Participant = Participant(name: string, r: real, mdd: real, leverage: real, ytdContrib: real)

  /** The floating-point functions the engine calls. */
  datatype Transcendentals = Transcendentals(pow: (real, real) -> real, ln: real -> real, exp: real -> real)

  /** Why `calculate` refused: fewer than two rows, or the rows (by index) that fail the
      row checks. */
  datatype CalcError = TooFewParticipants | InvalidRows(indices: seq<nat>)

  /** Scores, log-scores, robust centre and scale, and the leaders. */
  datatype Ranking = Ranking(scores: seq<Score>, lnP: seq<real>, stats: Stats, leaders: seq<bool>, leaderCount: nat)

  /** What each participant pays in, as a real amount and rounded, and the integer pot. */
  datatype Charge = Charge(contribFloat: seq<real>, contribInt: seq<int>, pot: int)

  /** What each participant is credited out of the pot, as a real share and as an integer. */
  datatype Payout = Payout(creditFloat: seq<real>, creditInt: seq<int>)

  /** Each participant's net amount and year-to-date state after the settlement. */
  datatype Ledger = Ledger(netInt: seq<int>, ytdAfter: seq<real>, capRemainAfter: seq<real>)

  /** Everything one settlement derives, one entry per participant in input order. */
  datatype Settled = Settled(rank: Ranking, violations: seq<bool>, charge: Charge, payout: Payout, ledger: Ledger)

  /** Every per-participant list has one entry per participant. */
  predicate Shaped(s: Settled, n: nat)
  {
    && |s.rank.scores| == n && |s.rank.lnP| == n && |s.rank.leaders| == n && |s.violations| == n
    && |s.charge.contribFloat| == n && |s.charge.contribInt| == n
    && |s.payout.creditFloat| == n && |s.payout.creditInt| == n
    && |s.ledger.netInt| == n && |s.ledger.ytdAfter| == n && |s.ledger.capRemainAfter| == n
  }

  /** A participant not over the leverage limit exists. */
  predicate SomeoneEligible(p: Params, rows: seq<Participant>)
  {
    exists i :: 0 <= i < |rows| && rows[i].leverage <= p.leverageMax
  }

  function Scores(p: Params, rows: seq<Participant>, annPower: real, pow: (real, real) -> real): (s: seq<Score>)
    requires p.mdd0 > 0.0
    requires forall i :: 0 <= i < |rows| ==> rows[i].mdd >= 0.0
    ensures |s| == |rows|
    ensures PowPositive(pow) ==> forall i :: 0 <= i < |s| ==> s[i].p > 0.0
  {
    seq(|rows|, i requires 0 <= i < |rows| => ComputeP(rows[i].r, rows[i].mdd, annPower, p, pow))
  }

  /** A logarithm that is strictly increasing on the positive reals, as the true one is. */
  ghost predicate StrictlyIncreasing(ln: real -> real)
  {
    forall a, b :: 0.0 < a < b ==> ln(a) < ln(b)
  }

  /** `x * y`, named so that the product rule below is only applied where a product of two
      log arguments is formed. */
  function Times(x: real, y: real): real
  {
    x * y
  }

  /** The hypothesis holds for the true logarithm: any function with the product rule
      `ln(x * y) == ln(x) + ln(y)` on the positive reals and positive above one is strictly
      increasing there. */
  lemma ProductRuleIncreasing(ln: real -> real)
    requires forall x, y :: 0.0 < x && 0.0 < y ==> ln(Times(x, y)) == ln(x) + ln(y)
    requires forall x :: 1.0 < x ==> ln(x) > 0.0
    ensures StrictlyIncreasing(ln)
  {
    forall a, b | 0.0 < a < b
      ensures ln(a) < ln(b)
    {
      var q := QuotientAboveOne(a, b);
      assert ln(q) > 0.0;
      assert Times(a, q) == b;
      assert ln(Times(a, q)) == ln(a) + ln(q);
    }
  }

  /** A larger positive number is a smaller one times a factor above one. */
  lemma QuotientAboveOne(a: real, b: real) returns (q: real)
    requires 0.0 < a < b
    ensures q > 1.0 && a * q == b
  {
    q := b / a;
    DivideOrder(b, a, a);
    DivideSelf(a);
  }

  /** `lnP = Math.log(P)`: one log-score per score. With positive scores and a logarithm
      strictly increasing on the positive reals the log-scores order the participants exactly
      as the scores do, ties included. */
  function LogScores(scores: seq<Score>, ln: real -> real): (l: seq<real>)
    ensures |l| == |scores|
    ensures StrictlyIncreasing(ln) && (forall i :: 0 <= i < |scores| ==> scores[i].p > 0.0) ==>
      forall i, j :: 0 <= i < |l| && 0 <= j < |l| ==>
      (l[i] < l[j] <==> scores[i].p < scores[j].p) && (l[i] == l[j] <==> scores[i].p == scores[j].p)
  {
    seq(|scores|, i requires 0 <= i < |scores| => ln(scores[i].p))
  }

  /** `isLeverageViolation = Leverage > leverageMax`. */
  function Violations(p: Params, rows: seq<Participant>): (v: seq<bool>)
    ensures |v| == |rows|
    ensures forall i :: 0 <= i < |rows| ==> (v[i] <==> rows[i].leverage > p.leverageMax)
  {
    seq(|rows|, i requires 0 <= i < |rows| => rows[i].leverage > p.leverageMax)
  }

  function YtdContribs(rows: seq<Participant>): (y: seq<real>)
    ensures |y| == |rows|
    ensures forall i :: 0 <= i < |rows| ==> y[i] == rows[i].ytdContrib
  {
    seq(|rows|, i requires 0 <= i < |rows| => rows[i].ytdContrib)
  }

  /** `contribInt = roundInt(contribFloat)`: each within half a unit of its real amount. */
  function RoundAll(xs: seq<real>): (r: seq<int>)
    ensures |r| == |xs|
    ensures forall i :: 0 <= i < |xs| ==> r[i] as real - 0.5 <= xs[i] < r[i] as real + 0.5
    ensures forall i :: 0 <= i < |xs| ==> r[i] == RoundInt(xs[i])
  {
    seq(|xs|, i requires 0 <= i < |xs| => RoundInt(xs[i]))
  }

  /** Scores, log-scores, robust statistics and leaders of a population of at least two. The
      scale is at least the floor `dlnMin`, at least one participant leads, at least one does
      not, and several lead only when the log-scores are not all tied. */
  function Rank(p: Params, rows: seq<Participant>, annPower: real, m: Transcendentals): (k: Ranking)
    requires Valid(p) && |rows| >= 2
    requires forall i :: 0 <= i < |rows| ==> rows[i].mdd >= 0.0
    ensures |k.scores| == |rows| && |k.lnP| == |rows| && |k.leaders| == |rows|
    ensures k.stats.scale >= p.dlnMin
    ensures exists i :: 0 <= i < |rows| && !k.leaders[i]
    ensures 1 <= k.leaderCount && (k.leaderCount > 1 ==> !AllTied(k.lnP))
  {
    var scores := Scores(p, rows, annPower, m.pow);
    var lnP := LogScores(scores, m.ln);
    var leaders := LeaderFlags(lnP);
    LeaderCount(lnP);
    Ranking(scores, lnP, RobustStats(lnP, p.dlnMin), leaders, Count(leaders))
  }

  /** Contributions: a violator is charged its full allowance; otherwise a leader pays nothing
      and a non-leader pays at most its allowance and, with a non-negative exponential, at least
      the uniform share `PotTarget * alpha / |S|` or its whole allowance, whichever is smaller. Every integer amount is within half a unit
      of the real one, and the pot is their total. */
  function Charges(p: Params, k: Ranking, violations: seq<bool>, ytd: seq<real>, exp: real -> real): (c: Charge)
    requires Valid(p) && k.stats.scale > 0.0
    requires |k.leaders| == |k.lnP| && |violations| == |k.lnP| && |ytd| == |k.lnP|
    ensures |c.contribFloat| == |ytd| && |c.contribInt| == |ytd|
    ensures forall i :: 0 <= i < |ytd| && violations[i] ==> c.contribFloat[i] == Allowance(p, ytd[i])
    ensures forall i :: 0 <= i < |ytd| && !violations[i] && k.leaders[i] ==> c.contribFloat[i] == 0.0
    ensures forall i :: 0 <= i < |ytd| && !violations[i] && !k.leaders[i] ==> c.contribFloat[i] <= Allowance(p, ytd[i])
    ensures forall i :: 0 <= i < |ytd| ==> c.contribInt[i] as real - 0.5 <= c.contribFloat[i] < c.contribInt[i] as real + 0.5
    ensures forall i :: 0 <= i < |ytd| ==> c.contribInt[i] == RoundInt(c.contribFloat[i])
    ensures NonNegative(exp) ==> forall i :: 0 <= i < |ytd| ==> c.contribFloat[i] >= 0.0 && c.contribInt[i] >= 0
    ensures NonNegative(exp) ==> forall i :: 0 <= i < |ytd| && !violations[i] && !k.leaders[i] ==>
      c.contribFloat[i] >= Min(UniformShare(p, NonLeaderCount(k.leaders)), Allowance(p, ytd[i]))
    ensures c.pot == Sum(c.contribInt)
  {
    var contribFloat := ContribFloats(p, k.lnP, k.stats.scale, k.leaders, violations, ytd, exp);
    var contribInt := RoundAll(contribFloat);
    RoundedCharges(p, k, violations, ytd, exp, contribFloat, contribInt);
    Charge(contribFloat, contribInt, Sum(contribInt))
  }

  /** The rounded contributions keep the sign of the real ones. */
  lemma RoundedCharges(p: Params, k: Ranking, violations: seq<bool>, ytd: seq<real>, exp: real -> real,
                       contribFloat: seq<real>, contribInt: seq<int>)
    requires Valid(p) && k.stats.scale > 0.0
    requires |k.leaders| == |k.lnP| && |violations| == |k.lnP| && |ytd| == |k.lnP|
    requires contribFloat == ContribFloats(p, k.lnP, k.stats.scale, k.leaders, violations, ytd, exp)
    requires contribInt == RoundAll(contribFloat)
    ensures NonNegative(exp) ==> forall i :: 0 <= i < |ytd| ==> contribFloat[i] >= 0.0 && contribInt[i] >= 0
  {
    RoundedNonNegative(contribFloat, contribInt);
  }

  /** Non-negative amounts round to non-negative integers. */
  lemma RoundedNonNegative(xs: seq<real>, r: seq<int>)
    requires |r| == |xs|
    requires forall i :: 0 <= i < |xs| ==> r[i] as real - 0.5 <= xs[i] < r[i] as real + 0.5
    ensures (forall i :: 0 <= i < |xs| ==> xs[i] >= 0.0) ==> forall i :: 0 <= i < |xs| ==> r[i] >= 0
  {
  }

  /** The credit weights of a ranking: softmax over the standardised log-scores with the
      violators removed. */
  function Weights(p: Params, k: Ranking, violations: seq<bool>, exp: real -> real): (w: seq<real>)
    requires k.stats.scale > 0.0 && |violations| == |k.lnP|
    ensures |w| == |k.lnP|
    ensures forall i :: 0 <= i < |w| && violations[i] ==> w[i] == 0.0
    ensures NonNegative(exp) ==> forall i :: 0 <= i < |w| ==> w[i] >= 0.0
    ensures NonNegative(exp) ==> SumReal(w) == 1.0 || forall i :: 0 <= i < |w| ==> w[i] == 0.0
  {
    CreditWeights(p, Standardized(k.lnP, k.stats.center, k.stats.scale), violations, exp)
  }

  /** Credits: each participant's real credit is the pot times their credit weight; violators
      get nothing, nobody gets a negative amount, every eligible participant gets at least the
      whole part of their real credit, and when every participant is a violator nothing is
      handed out. */
  function Payouts(p: Params, k: Ranking, violations: seq<bool>, pot: int, exp: real -> real): (q: Payout)
    requires k.stats.scale > 0.0 && |violations| == |k.lnP|
    ensures |q.creditFloat| == |violations| && |q.creditInt| == |violations|
    ensures forall i :: 0 <= i < |violations| ==> q.creditFloat[i] == pot as real * Weights(p, k, violations, exp)[i]
    ensures forall i :: 0 <= i < |violations| && violations[i] ==> q.creditFloat[i] == 0.0 && q.creditInt[i] == 0
    ensures forall i :: 0 <= i < |violations| ==> q.creditInt[i] >= 0
    ensures forall i :: 0 <= i < |violations| && !violations[i] ==> q.creditInt[i] >= FloorPart(q.creditFloat[i])
    ensures (forall i :: 0 <= i < |violations| ==> violations[i]) ==> Sum(q.creditInt) == 0
  {
    PayoutFor(pot, Weights(p, k, violations, exp), violations)
  }

  /** The payout for given credit weights: the real credits scale the weights by the pot and
      the integer credits are rounded from them, so the facts about both stages hold
      together. */
  function PayoutFor(pot: int, w: seq<real>, violations: seq<bool>): (q: Payout)
    requires |w| == |violations|
    requires forall i :: 0 <= i < |w| && violations[i] ==> w[i] == 0.0
    ensures |q.creditFloat| == |violations| && |q.creditInt| == |violations|
    ensures forall i :: 0 <= i < |violations| ==> q.creditFloat[i] == pot as real * w[i]
    ensures forall i :: 0 <= i < |violations| && violations[i] ==> q.creditFloat[i] == 0.0 && q.creditInt[i] == 0
    ensures forall i :: 0 <= i < |violations| ==> q.creditInt[i] >= 0
    ensures forall i :: 0 <= i < |violations| && !violations[i] ==> q.creditInt[i] >= FloorPart(q.creditFloat[i])
    ensures (forall i :: 0 <= i < |violations| ==> violations[i]) ==> Sum(q.creditInt) == 0
  {
    var creditFloat := CreditFloats(pot, w);
    Payout(creditFloat, CreditInts(pot, creditFloat, violations))
  }

  /** `netInt = creditInt - contribInt`, `ytdAfter = YTD_Contrib - netInt`,
      `capRemainAfter = max(0, CAP_Y - ytdAfter)`: the year-to-date ledger grows by what was
      paid in and shrinks by what was credited, and the remaining yearly cap is never
      negative. */
  function AfterState(p: Params, ytd: seq<real>, contribInt: seq<int>, creditInt: seq<int>): (l: Ledger)
    requires |contribInt| == |ytd| && |creditInt| == |ytd|
    ensures |l.netInt| == |ytd| && |l.ytdAfter| == |ytd| && |l.capRemainAfter| == |ytd|
    ensures forall i :: 0 <= i < |ytd| ==> l.netInt[i] + contribInt[i] == creditInt[i]
    ensures forall i :: 0 <= i < |ytd| ==> l.ytdAfter[i] == ytd[i] + contribInt[i] as real - creditInt[i] as real
    ensures forall i :: 0 <= i < |ytd| ==> l.capRemainAfter[i] >= 0.0 && l.capRemainAfter[i] >= p.capY - l.ytdAfter[i]
    ensures forall i :: 0 <= i < |ytd| ==> l.capRemainAfter[i] == 0.0 || l.capRemainAfter[i] == p.capY - l.ytdAfter[i]
  {
    var net := seq(|ytd|, i requires 0 <= i < |ytd| => creditInt[i] - contribInt[i]);
    var after := seq(|ytd|, i requires 0 <= i < |ytd| => ytd[i] - net[i] as real);
    var capAfter := seq(|ytd|, i requires 0 <= i < |ytd| => CapRemain(p, after[i]));
    Ledger(net, after, capAfter)
  }

  /** The settlement of a population of at least two. */
  function Settle(p: Params, rows: seq<Participant>, annPower: real, m: Transcendentals): (s: Settled)
    requires Valid(p) && |rows| >= 2
    requires forall i :: 0 <= i < |rows| ==> rows[i].mdd >= 0.0
    ensures Shaped(s, |rows|)
    ensures forall i :: 0 <= i < |rows| ==> (s.violations[i] <==> rows[i].leverage > p.leverageMax)
  {
    var ytd := YtdContribs(rows);
    var rank := Rank(p, rows, annPower, m);
    var violations := Violations(p, rows);
    var charge := Charges(p, rank, violations, ytd, m.exp);
    var payout := Payouts(p, rank, violations, charge.pot, m.exp);
    var ledger := AfterState(p, ytd, charge.contribInt, payout.creditInt);
    Settled(rank, violations, charge, payout, ledger)
  }

  /** The numeric checks `validateRow` makes: a return above -100%, a drawdown between 0 and
      1.5, and no negative leverage or year-to-date contribution. */
  predicate RowValid(row: Participant)
  {
    row.r > -1.0 && 0.0 <= row.mdd <= 1.5 && row.leverage >= 0.0 && row.ytdContrib >= 0.0
  }

  /** The numeric complaints `validateRow` can raise, in the order it checks for them. */
  datatype RowError = ReturnNotAboveMinusOne | DrawdownOutOfRange | NegativeLeverage | NegativeYtd

  /** Position of a complaint in the order of the checks. */
  function CheckRank(e: RowError): nat
  {
    match e
    case ReturnNotAboveMinusOne => 0
    case DrawdownOutOfRange => 1
    case NegativeLeverage => 2
    case NegativeYtd => 3
  }

  /** `validateRow`, numeric checks: one complaint per failed check, each at most once and in
      the order the checks are made. A row draws no complaint exactly when it passes
      `RowValid`, so refusing on a non-empty error list is refusing on an invalid row. */
  function ValidateRow(row: Participant): (errs: seq<RowError>)
    ensures |errs| <= 4
    ensures forall a, b :: 0 <= a < b < |errs| ==> CheckRank(errs[a]) < CheckRank(errs[b])
    ensures errs == [] <==> RowValid(row)
    ensures ReturnNotAboveMinusOne in errs <==> row.r <= -1.0
    ensures DrawdownOutOfRange in errs <==> row.mdd < 0.0 || row.mdd > 1.5
    ensures NegativeLeverage in errs <==> row.leverage < 0.0
    ensures NegativeYtd in errs <==> row.ytdContrib < 0.0
  {
    var a := if row.r <= -1.0 then [ReturnNotAboveMinusOne] else [];
    var b := if row.mdd < 0.0 || row.mdd > 1.5 then [DrawdownOutOfRange] else [];
    var c := if row.leverage < 0.0 then [NegativeLeverage] else [];
    var d := if row.ytdContrib < 0.0 then [NegativeYtd] else [];
    ComplaintsInOrder(a, b, c, d);
    a + b + c + d
  }

  /** Complaint lists of at most one complaint each, drawn from the successive checks, join
      into a list in check order; a complaint is in the join exactly when it is in its part. */
  lemma ComplaintsInOrder(a: seq<RowError>, b: seq<RowError>, c: seq<RowError>, d: seq<RowError>)
    requires a == [] || a == [ReturnNotAboveMinusOne]
    requires b == [] || b == [DrawdownOutOfRange]
    requires c == [] || c == [NegativeLeverage]
    requires d == [] || d == [NegativeYtd]
    ensures |a + b + c + d| <= 4
    ensures forall x, y :: 0 <= x < y < |a + b + c + d| ==> CheckRank((a + b + c + d)[x]) < CheckRank((a + b + c + d)[y])
    ensures ReturnNotAboveMinusOne in a + b + c + d <==> a != []
    ensures DrawdownOutOfRange in a + b + c + d <==> b != []
    ensures NegativeLeverage in a + b + c + d <==> c != []
    ensures NegativeYtd in a + b + c + d <==> d != []
  {
    var e := a + b + c + d;
    forall x, y | 0 <= x < y < |e|
      ensures CheckRank(e[x]) < CheckRank(e[y])
    {
      assert forall z :: 0 <= z < |e| ==> e[z] in e;
    }
  }

  /** The indices of the rows that fail the checks, in input order, each once. */
  function Rejected(rows: seq<Participant>): (bad: seq<nat>)
    ensures InBounds(bad, |rows|) && Distinct(bad)
    ensures forall i :: 0 <= i < |rows| ==> (i in bad <==> !RowValid(rows[i]))
  {
    Where(seq(|rows|, i requires 0 <= i < |rows| => !RowValid(rows[i])))
  }

  /** `calculate`: refuses a population of fewer than two; otherwise refuses it when any row
      fails the checks, naming exactly the failing rows; otherwise settles it. */
  function Calculate(p: Params, rows: seq<Participant>, annPower: real, m: Transcendentals): (r: Result<Settled, CalcError>)
    requires Valid(p)
    ensures |rows| < 2 <==> r == Failure(TooFewParticipants)
    ensures r.Failure? <==> |rows| < 2 || exists i :: 0 <= i < |rows| && !RowValid(rows[i])
    ensures r.Failure? && r.error.InvalidRows? ==>
      |rows| >= 2 && forall i :: 0 <= i < |rows| ==> (i in r.error.indices <==> !RowValid(rows[i]))
    ensures r.Success? ==>
      && |rows| >= 2
      && (forall i :: 0 <= i < |rows| ==> RowValid(rows[i]))
      && r.value == Settle(p, rows, annPower, m)
  {
    if |rows| < 2 then Failure(TooFewParticipants)
    else
      var bad := Rejected(rows);
      if |bad| > 0 then
        assert bad[0] < |rows| && bad[0] in bad;
        Failure(InvalidRows(bad))
      else
        assert forall i :: 0 <= i < |rows| ==> RowValid(rows[i]);
        Success(Settle(p, rows, annPower, m))
  }

  /** With a non-negative exponential nobody pays a negative amount, so the pot is never
      negative. */
  lemma ChargeNonNegative(p: Params, k: Ranking, violations: seq<bool>, ytd: seq<real>, exp: real -> real)
    requires Valid(p) && k.stats.scale > 0.0
    requires |k.leaders| == |k.lnP| && |violations| == |k.lnP| && |ytd| == |k.lnP|
    requires NonNegative(exp)
    ensures Charges(p, k, violations, ytd, exp).pot >= 0
  {
    SumNonNegative(Charges(p, k, violations, ytd, exp).contribInt);
  }

  /** With a non-negative exponential, a non-negative pot and someone eligible, the credits
      add up to exactly the pot. */
  lemma PayoutConserves(p: Params, k: Ranking, violations: seq<bool>, pot: int, exp: real -> real)
    requires k.stats.scale > 0.0 && |violations| == |k.lnP|
    requires NonNegative(exp) && pot >= 0
    requires exists i :: 0 <= i < |violations| && !violations[i]
    ensures Sum(Payouts(p, k, violations, pot, exp).creditInt) == pot
  {
    CreditsExhaustPot(pot, Weights(p, k, violations, exp), violations);
  }

  /** The nets add up to the credits minus the contributions, and the year-to-date total
      moves by minus the nets; so when the credits add up to the contributions, the nets add
      up to zero and the year-to-date total is unchanged. */
  lemma LedgerBalances(p: Params, ytd: seq<real>, contribInt: seq<int>, creditInt: seq<int>)
    requires |contribInt| == |ytd| && |creditInt| == |ytd|
    ensures var l := AfterState(p, ytd, contribInt, creditInt);
      && Sum(l.netInt) == Sum(creditInt) - Sum(contribInt)
      && SumReal(l.ytdAfter) == SumReal(ytd) - Sum(l.netInt) as real
    ensures var l := AfterState(p, ytd, contribInt, creditInt);
      Sum(creditInt) == Sum(contribInt) ==> Sum(l.netInt) == 0 && SumReal(l.ytdAfter) == SumReal(ytd)
  {
    var l := AfterState(p, ytd, contribInt, creditInt);
    SumDifference(creditInt, contribInt, l.netInt);
    SumRealMinusInts(ytd, l.netInt, l.ytdAfter);
  }

  /** When the caps and a participant's year-to-date contribution are whole numbers, its
      rounded contribution exceeds neither the quarterly cap nor what the yearly cap still
      allows. */
  lemma ChargeWithinIntegralCaps(p: Params, k: Ranking, violations: seq<bool>, ytd: seq<real>, exp: real -> real,
                                 i: int, capQ: int, capY: int, y: int)
    requires Valid(p) && k.stats.scale > 0.0
    requires |k.leaders| == |k.lnP| && |violations| == |k.lnP| && |ytd| == |k.lnP|
    requires p.capQ == capQ as real && p.capY == capY as real
    requires 0 <= i < |ytd| && ytd[i] == y as real
    ensures var c := Charges(p, k, violations, ytd, exp);
      && c.contribInt[i] as real <= p.capQ
      && c.contribInt[i] as real <= CapRemain(p, ytd[i])
  {
    var c := Charges(p, k, violations, ytd, exp);
    var a := Allowance(p, ytd[i]);
    var bound: int := if a == p.capQ then capQ else if a == 0.0 then 0 else capY - y;
    assert a == bound as real;
    assert c.contribFloat[i] <= a;
    RoundIntBelowIntegralBound(c.contribFloat[i], bound);
  }

  /** A participant over the leverage limit is charged its full allowance, leader or not. */
  lemma ViolatorCharged(p: Params, rows: seq<Participant>, annPower: real, m: Transcendentals, i: int)
    requires Valid(p) && |rows| >= 2
    requires forall j :: 0 <= j < |rows| ==> rows[j].mdd >= 0.0
    requires 0 <= i < |rows| && rows[i].leverage > p.leverageMax
    ensures var s := Settle(p, rows, annPower, m);
      && s.charge.contribFloat[i] == Allowance(p, rows[i].ytdContrib)
      && s.payout.creditInt[i] == 0
  {
    var s := Settle(p, rows, annPower, m);
    assert s.violations[i];
  }

  /** A leader within the leverage limit pays nothing. */
  lemma LeaderExempt(p: Params, rows: seq<Participant>, annPower: real, m: Transcendentals, i: int)
    requires Valid(p) && |rows| >= 2
    requires forall j :: 0 <= j < |rows| ==> rows[j].mdd >= 0.0
    requires 0 <= i < |rows| && rows[i].leverage <= p.leverageMax
    requires Settle(p, rows, annPower, m).rank.leaders[i]
    ensures var s := Settle(p, rows, annPower, m);
      s.charge.contribFloat[i] == 0.0 && s.charge.contribInt[i] == 0
  {
    var s := Settle(p, rows, annPower, m);
    assert !s.violations[i];
  }

  /** A non-leader within the leverage limit pays at most its allowance, and with a
      non-negative exponential nothing negative and at least the uniform share
      `PotTarget * alpha / |S|` or its whole allowance, whichever is smaller. */
  lemma NonLeaderWithinAllowance(p: Params, rows: seq<Participant>, annPower: real, m: Transcendentals, i: int)
    requires Valid(p) && |rows| >= 2
    requires forall j :: 0 <= j < |rows| ==> rows[j].mdd >= 0.0
    requires 0 <= i < |rows| && rows[i].leverage <= p.leverageMax
    requires !Settle(p, rows, annPower, m).rank.leaders[i]
    ensures var s := Settle(p, rows, annPower, m);
      && s.charge.contribFloat[i] <= Allowance(p, rows[i].ytdContrib)
      && (NonNegative(m.exp) ==> s.charge.contribFloat[i] >= 0.0)
      && (NonNegative(m.exp) ==>
            s.charge.contribFloat[i] >= Min(UniformShare(p, NonLeaderCount(s.rank.leaders)), Allowance(p, rows[i].ytdContrib)))
  {
    var s := Settle(p, rows, annPower, m);
    assert !s.violations[i];
  }

  /** With a non-negative exponential the pot of a settlement is never negative. */
  lemma PotNonNegative(p: Params, rows: seq<Participant>, annPower: real, m: Transcendentals)
    requires Valid(p) && |rows| >= 2
    requires forall j :: 0 <= j < |rows| ==> rows[j].mdd >= 0.0
    requires NonNegative(m.exp)
    ensures Settle(p, rows, annPower, m).charge.pot >= 0
  {
    var s := Settle(p, rows, annPower, m);
    ChargeNonNegative(p, s.rank, s.violations, YtdContribs(rows), m.exp);
  }

  /** With a non-negative exponential and someone within the leverage limit, the credits of a
      settlement add up to exactly its pot. */
  lemma CreditsAddUpToPot(p: Params, rows: seq<Participant>, annPower: real, m: Transcendentals, s: Settled)
    requires Valid(p) && |rows| >= 2
    requires forall j :: 0 <= j < |rows| ==> rows[j].mdd >= 0.0
    requires NonNegative(m.exp) && SomeoneEligible(p, rows)
    requires s == Settle(p, rows, annPower, m)
    ensures Sum(s.payout.creditInt) == s.charge.pot
  {
    PotNonNegative(p, rows, annPower, m);
    var k :| 0 <= k < |rows| && rows[k].leverage <= p.leverageMax;
    assert !s.violations[k];
    PayoutConserves(p, s.rank, s.violations, s.charge.pot, m.exp);
  }

  /** In every settlement the nets add up to the credits minus the pot, and the year-to-date
      total moves by minus the nets; when the credits add up to the pot, the nets add up to
      zero and the year-to-date total is unchanged. */
  lemma NetsBalance(p: Params, rows: seq<Participant>, annPower: real, m: Transcendentals, s: Settled)
    requires Valid(p) && |rows| >= 2
    requires forall j :: 0 <= j < |rows| ==> rows[j].mdd >= 0.0
    requires s == Settle(p, rows, annPower, m)
    ensures s.charge.pot == Sum(s.charge.contribInt)
    ensures Sum(s.ledger.netInt) == Sum(s.payout.creditInt) - s.charge.pot
    ensures SumReal(s.ledger.ytdAfter) == SumReal(YtdContribs(rows)) - Sum(s.ledger.netInt) as real
    ensures Sum(s.payout.creditInt) == s.charge.pot ==>
      Sum(s.ledger.netInt) == 0 && SumReal(s.ledger.ytdAfter) == SumReal(YtdContribs(rows))
  {
    LedgerBalances(p, YtdContribs(rows), s.charge.contribInt, s.payout.creditInt);
  }

  /** The money of a settlement balances: the credits hand out exactly the pot the
      contributions raised, the nets add up to zero, and the total year-to-date contribution
      is what it was before. */
  predicate Balanced(rows: seq<Participant>, s: Settled)
  {
    && Sum(s.payout.creditInt) == s.charge.pot == Sum(s.charge.contribInt)
    && Sum(s.ledger.netInt) == 0
    && SumReal(s.ledger.ytdAfter) == SumReal(YtdContribs(rows))
  }

  /** Conservation: when at least one participant is within the leverage limit (and the
      exponential is non-negative, as the true one is), every settlement balances. */
  lemma Conservation(p: Params, rows: seq<Participant>, annPower: real, m: Transcendentals)
    requires Valid(p) && |rows| >= 2
    requires forall i :: 0 <= i < |rows| ==> rows[i].mdd >= 0.0
    requires NonNegative(m.exp) && SomeoneEligible(p, rows)
    ensures Balanced(rows, Settle(p, rows, annPower, m))
  {
    var s := Settle(p, rows, annPower, m);
    CreditsAddUpToPot(p, rows, annPower, m, s);
    NetsBalance(p, rows, annPower, m, s);
  }

  /** When every participant is over the leverage limit, each is charged its full allowance
      and nobody is credited: the pot is collected but not handed out, and the nets add up to
      minus the pot. */
  lemma AllViolatorsWithheld(p: Params, rows: seq<Participant>, annPower: real, m: Transcendentals)
    requires Valid(p) && |rows| >= 2
    requires forall i :: 0 <= i < |rows| ==> rows[i].mdd >= 0.0
    requires !SomeoneEligible(p, rows)
    ensures var s := Settle(p, rows, annPower, m);
      && (forall i :: 0 <= i < |rows| ==> s.payout.creditInt[i] == 0)
      && (forall i :: 0 <= i < |rows| ==> s.charge.contribFloat[i] == Allowance(p, rows[i].ytdContrib))
      && Sum(s.ledger.netInt) == -s.charge.pot
  {
    var s := Settle(p, rows, annPower, m);
    forall i | 0 <= i < |rows|
      ensures s.payout.creditInt[i] == 0
      ensures s.charge.contribFloat[i] == Allowance(p, rows[i].ytdContrib)
    {
      ViolatorCharged(p, rows, annPower, m, i);
    }
    SumZeros(s.payout.creditInt);
    NetsBalance(p, rows, annPower, m, s);
  }

  /** When the caps and a participant's year-to-date contribution are whole numbers, its
      rounded contribution in a settlement exceeds neither the quarterly cap nor what the
      yearly cap still allows. */
  lemma IntegralCapsRespected(p: Params, rows: seq<Participant>, annPower: real, m: Transcendentals,
                              i: int, capQ: int, capY: int, ytd: int)
    requires Valid(p) && |rows| >= 2
    requires forall j :: 0 <= j < |rows| ==> rows[j].mdd >= 0.0
    requires p.capQ == capQ as real && p.capY == capY as real
    requires 0 <= i < |rows| && rows[i].ytdContrib == ytd as real
    ensures var s := Settle(p, rows, annPower, m);
      && s.charge.contribInt[i] as real <= p.capQ
      && s.charge.contribInt[i] as real <= CapRemain(p, rows[i].ytdContrib)
  {
    var s := Settle(p, rows, annPower, m);
    ChargeWithinIntegralCaps(p, s.rank, s.violations, YtdContribs(rows), m.exp, i, capQ, capY, ytd);
  }
}

=== FILE: softmax.dfy ===
/** `stableSoftmax`: weights proportional to `exp(k * x_i - max_j k * x_j)`, with a uniform
    fallback when the exponentials do not add up to something positive. The exponential itself
    is a parameter of the model. */
module Softmax {
  import opened Sums
  import opened Numeric

  /** An exponential that never yields a negative number. */
  ghost predicate NonNegative(exp: real -> real)
  {
    forall y :: exp(y) >= 0.0
  }

  /** An exponential that yields only positive numbers, as the true one does. */
  ghost predicate Positive(exp: real -> real)
  {
    forall y :: exp(y) > 0.0
  }

  /** An exponential that never decreases, as the true one does. */
  ghost predicate Monotone(exp: real -> real)
  {
    forall a, b :: a <= b ==> exp(a) <= exp(b)
  }

  /** The shifted exponentials `exp(k * x_i - m)` with `m` the largest scaled input. The
      largest scaled input is shifted to zero, so its entry is `exp(0)`, and with a
      non-decreasing exponential no entry exceeds it: the shift keeps every exponent at or
      below zero. */
  function Shifted(xs: seq<real>, k: real, exp: real -> real): (e: seq<real>)
    requires |xs| > 0
    ensures |e| == |xs|
    ensures NonNegative(exp) ==> forall i :: 0 <= i < |e| ==> e[i] >= 0.0
    ensures Positive(exp) ==> forall i :: 0 <= i < |e| ==> e[i] > 0.0
    ensures exists i :: 0 <= i < |e| && e[i] == exp(0.0)
    ensures forall i :: 0 <= i < |e| && Scale(xs, k)[i] == MaxOf(Scale(xs, k)) ==> e[i] == exp(0.0)
    ensures Monotone(exp) ==> forall i :: 0 <= i < |e| ==> e[i] <= exp(0.0)
  {
    var scaled := Scale(xs, k);
    var m := MaxOf(scaled);
    var e := seq(|xs|, i requires 0 <= i < |xs| => exp(scaled[i] - m));
    var top :| 0 <= top < |scaled| && scaled[top] == m;
    assert e[top] == exp(0.0);
    e
  }

  /** The inputs multiplied by the temperature. */
  function Scale(xs: seq<real>, k: real): (r: seq<real>)
    ensures |r| == |xs|
    ensures forall i :: 0 <= i < |xs| ==> r[i] == k * xs[i]
  {
    seq(|xs|, i requires 0 <= i < |xs| => k * xs[i])
  }

  /** Softmax at temperature `k`. The result has one weight per input; with a non-negative
      exponential the weights are non-negative and add up to one, with a positive one every
      weight is positive, and when the exponentials add up to nothing positive every input
      gets the uniform weight `1 / n`. */
  function StableSoftmax(xs: seq<real>, k: real, exp: real -> real): (w: seq<real>)
    ensures |w| == |xs|
    ensures NonNegative(exp) ==> forall i :: 0 <= i < |w| ==> w[i] >= 0.0
    ensures NonNegative(exp) && |xs| > 0 ==> SumReal(w) == 1.0
    ensures Positive(exp) ==> forall i :: 0 <= i < |w| ==> w[i] > 0.0
    ensures |xs| > 0 && SumReal(Shifted(xs, k, exp)) <= 0.0 ==>
      forall i :: 0 <= i < |w| ==> w[i] == 1.0 / |xs| as real
  {
    if |xs| == 0 then []
    else
      var e := Shifted(xs, k, exp);
      var total := SumReal(e);
      if total <= 0.0 then Uniform(|xs|)
      else
        var w := Normalize(e, total);
        DivideSelf(total);
        w
  }

  /** Equal weights `1 / n`, adding up to one. */
  function Uniform(n: nat): (w: seq<real>)
    requires n > 0
    ensures |w| == n
    ensures forall i :: 0 <= i < n ==> w[i] == 1.0 / n as real && w[i] > 0.0
    ensures SumReal(w) == 1.0
  {
    var w := seq(n, _ => 1.0 / n as real);
    SumRealAffine(w, w, 0.0, 1.0 / n as real);
    assert n as real * (1.0 / n as real) == 1.0;
    w
  }

  /** Each value divided by a positive total: signs are kept, and the results add up to the
      share of the total that the values make up. */
  function Normalize(e: seq<real>, total: real): (w: seq<real>)
    requires total > 0.0
    ensures |w| == |e|
    ensures SumReal(w) == SumReal(e) / total
    ensures forall i :: 0 <= i < |e| ==> (w[i] >= 0.0 <==> e[i] >= 0.0) && (w[i] > 0.0 <==> e[i] > 0.0)
  {
    var w := seq(|e|, i requires 0 <= i < |e| => e[i] / total);
    SumRealDivide(e, w, total);
    w
  }

  /** Normalising keeps the order of the values. */
  lemma NormalizeMonotone(e: seq<real>, total: real, i: int, j: int)
    requires total > 0.0
    requires 0 <= i < |e| && 0 <= j < |e| && e[i] <= e[j]
    ensures Normalize(e, total)[i] <= Normalize(e, total)[j]
  {
    DivideOrder(e[i], e[j], total);
  }

  /** The shifted exponentials keep the order of the inputs. */
  lemma ShiftedMonotone(xs: seq<real>, k: real, exp: real -> real, i: int, j: int)
    requires Monotone(exp) && k >= 0.0 && |xs| > 0
    requires 0 <= i < |xs| && 0 <= j < |xs| && xs[i] <= xs[j]
    ensures Shifted(xs, k, exp)[i] <= Shifted(xs, k, exp)[j]
  {
    var scaled := Scale(xs, k);
    var m := MaxOf(scaled);
    ScaleMonotone(xs, k, i, j);
    assert exp(scaled[i] - m) <= exp(scaled[j] - m);
  }

  /** With a non-decreasing exponential and a non-negative temperature, a larger input never
      gets a smaller weight. */
  lemma SoftmaxMonotone(xs: seq<real>, k: real, exp: real -> real, i: int, j: int)
    requires Monotone(exp) && k >= 0.0
    requires 0 <= i < |xs| && 0 <= j < |xs| && xs[i] <= xs[j]
    ensures StableSoftmax(xs, k, exp)[i] <= StableSoftmax(xs, k, exp)[j]
  {
    var e := Shifted(xs, k, exp);
    var total := SumReal(e);
    ShiftedMonotone(xs, k, exp, i, j);
    if total > 0.0 {
      NormalizeMonotone(e, total, i, j);
    }
  }

  lemma ScaleMonotone(xs: seq<real>, k: real, i: int, j: int)
    requires k >= 0.0
    requires 0 <= i < |xs| && 0 <= j < |xs| && xs[i] <= xs[j]
    ensures Scale(xs, k)[i] <= Scale(xs, k)[j]
  {
    MultiplyMonotone(k, xs[i], xs[j]);
  }

}

=== FILE: sorting.dfy ===
/** The two sorts the engine performs: an ascending sort of numbers (inside `median`) and a
    stable sort of indices by descending key (the remainder order of the largest-remainder
    method; the JavaScript sort has been stable since ES2019). */
module Sorting {
  import opened Indices

  predicate SortedAsc(s: seq<real>)
  {
    forall a, b :: 0 <= a < b < |s| ==> s[a] <= s[b]
  }

  /** Inserts `x` in front of the first element not smaller than it. */
  function InsertAsc(x: real, s: seq<real>): (r: seq<real>)
    ensures multiset(r) == multiset(s) + multiset{x}
    ensures |r| == |s| + 1
    decreases |s|
  {
    if |s| == 0 || x <= s[0] then
      [x] + s
    else
      assert s == [s[0]] + s[1..];
      [s[0]] + InsertAsc(x, s[1..])
  }

  /** Inserting an element no smaller than a bound into a list no smaller than it keeps every
      element at or above the bound. */
  lemma {:induction false} InsertAscBounded(x: real, s: seq<real>, lo: real)
    requires x >= lo && forall k :: 0 <= k < |s| ==> s[k] >= lo
    ensures forall k :: 0 <= k < |InsertAsc(x, s)| ==> InsertAsc(x, s)[k] >= lo
    decreases |s|
  {
    if |s| > 0 && x > s[0] {
      InsertAscBounded(x, s[1..], lo);
    }
  }

  /** Inserting into a sorted list keeps it sorted. */
  lemma {:induction false} InsertAscSorted(x: real, s: seq<real>)
    requires SortedAsc(s)
    ensures SortedAsc(InsertAsc(x, s))
    decreases |s|
  {
    if |s| > 0 && x > s[0] {
      var rest := InsertAsc(x, s[1..]);
      InsertAscSorted(x, s[1..]);
      InsertAscBounded(x, s[1..], s[0]);
      var r := InsertAsc(x, s);
      assert r == [s[0]] + rest;
      forall a, b | 0 <= a < b < |r|
        ensures r[a] <= r[b]
      {
        assert r[b] == rest[b - 1];
        if a > 0 {
          assert r[a] == rest[a - 1];
        }
      }
    }
  }

  /** Ascending sort (`slice().sort((a, b) => a - b)`): a sorted rearrangement of the input. */
  function SortAsc(xs: seq<real>): (r: seq<real>)
    ensures SortedAsc(r)
    ensures multiset(r) == multiset(xs)
    ensures |r| == |xs|
  {
    if |xs| == 0 then []
    else
      assert xs == [xs[0]] + xs[1..];
      var rest := SortAsc(xs[1..]);
      InsertAscSorted(xs[0], rest);
      InsertAsc(xs[0], rest)
  }

  /** Two sorted sequences holding the same elements are equal: the ascending sort of a list
      does not depend on the order the list came in. */
  lemma {:induction false} SortedUnique(a: seq<real>, b: seq<real>)
    requires SortedAsc(a) && SortedAsc(b)
    requires multiset(a) == multiset(b)
    ensures a == b
  {
    if |a| == 0 {
      assert |b| == |multiset(b)| == 0;
    } else {
      assert |b| == |multiset(b)| == |multiset(a)| == |a|;
      SameHead(a, b);
      TailMultiset(a);
      TailMultiset(b);
      assert multiset(a[1..]) == multiset(b[1..]);
      SortedUnique(a[1..], b[1..]);
      calc {
        a;
        [a[0]] + a[1..];
        [b[0]] + b[1..];
        b;
      }
    }
  }

  /** Two non-empty sorted sequences with the same elements start with the same element. */
  lemma SameHead(a: seq<real>, b: seq<real>)
    requires SortedAsc(a) && SortedAsc(b) && |a| > 0 && |b| > 0
    requires multiset(a) == multiset(b)
    ensures a[0] == b[0]
  {
    assert a[0] in multiset(b);
    var i :| 0 <= i < |b| && b[i] == a[0];
    assert b[0] in multiset(a);
    var j :| 0 <= j < |a| && a[j] == b[0];
    assert b[0] <= b[i] && a[0] <= a[j];
  }

  /** Dropping the head keeps the rest sorted and removes one copy of the head. */
  lemma TailMultiset(a: seq<real>)
    requires SortedAsc(a) && |a| > 0
    ensures SortedAsc(a[1..])
    ensures multiset(a[1..]) == multiset(a) - multiset{a[0]}
  {
    assert a == [a[0]] + a[1..];
  }

  /** Sorting is insensitive to the input order. */
  lemma SortAscPermutation(xs: seq<real>, ys: seq<real>)
    requires multiset(xs) == multiset(ys)
    ensures SortAsc(xs) == SortAsc(ys)
  {
    SortedUnique(SortAsc(xs), SortAsc(ys));
  }

  /** Keys never increase along `order`. */
  predicate SortedDescBy(key: seq<real>, order: seq<nat>)
    requires InBounds(order, |key|)
  {
    forall a, b :: 0 <= a < b < |order| ==> key[order[a]] >= key[order[b]]
  }

  /** Indices with equal keys keep their input order. */
  predicate StableBy(key: seq<real>, order: seq<nat>)
    requires InBounds(order, |key|)
  {
    forall a, b :: 0 <= a < b < |order| && key[order[a]] == key[order[b]] ==> order[a] < order[b]
  }

  /** Inserts index `i` after every index whose key is at least `key[i]`. */
  function InsertDesc(key: seq<real>, i: nat, s: seq<nat>): (r: seq<nat>)
    requires i < |key| && InBounds(s, |key|)
    ensures |r| == |s| + 1 && InBounds(r, |key|)
    ensures forall x :: x in r <==> x == i || x in s
    decreases |s|
  {
    if |s| == 0 || key[s[0]] < key[i] then
      [i] + s
    else
      var rest := InsertDesc(key, i, s[1..]);
      assert forall x :: x in s <==> x == s[0] || x in s[1..];
      [s[0]] + rest
  }

  lemma {:induction false} InsertDescDistinct(key: seq<real>, i: nat, s: seq<nat>)
    requires i < |key| && InBounds(s, |key|) && Distinct(s) && i !in s
    ensures Distinct(InsertDesc(key, i, s))
    decreases |s|
  {
    if |s| > 0 && key[s[0]] >= key[i] {
      InsertDescDistinct(key, i, s[1..]);
      assert s[0] !in s[1..];
      assert s[0] !in InsertDesc(key, i, s[1..]);
    }
  }

  lemma {:induction false} InsertDescSorted(key: seq<real>, i: nat, s: seq<nat>)
    requires i < |key| && InBounds(s, |key|) && SortedDescBy(key, s)
    ensures SortedDescBy(key, InsertDesc(key, i, s))
    decreases |s|
  {
    if |s| > 0 && key[s[0]] >= key[i] {
      InsertDescSorted(key, i, s[1..]);
      var rest := InsertDesc(key, i, s[1..]);
      forall b | 0 <= b < |rest|
        ensures key[s[0]] >= key[rest[b]]
      {
        assert rest[b] in rest;
        if rest[b] != i {
          var c :| 0 <= c < |s[1..]| && s[1..][c] == rest[b];
          assert s[c + 1] == rest[b];
        }
      }
    }
  }

  lemma {:induction false} InsertDescStable(key: seq<real>, i: nat, s: seq<nat>)
    requires i < |key| && InBounds(s, |key|) && SortedDescBy(key, s) && StableBy(key, s)
    requires forall j :: 0 <= j < |s| ==> s[j] < i
    ensures StableBy(key, InsertDesc(key, i, s))
    decreases |s|
  {
    if |s| > 0 && key[s[0]] >= key[i] {
      InsertDescStable(key, i, s[1..]);
      var rest := InsertDesc(key, i, s[1..]);
      forall b | 0 <= b < |rest| && key[s[0]] == key[rest[b]]
        ensures s[0] < rest[b]
      {
        assert rest[b] in rest;
        if rest[b] != i {
          var c :| 0 <= c < |s[1..]| && s[1..][c] == rest[b];
          assert s[c + 1] == rest[b];
        }
      }
    } else if |s| > 0 {
      var r := InsertDesc(key, i, s);
      assert r == [i] + s;
      forall b | 0 < b < |r|
        ensures key[r[0]] > key[r[b]]
      {
        assert r[b] == s[b - 1];
      }
    }
  }

  function OrderPrefix(key: seq<real>, n: nat): (r: seq<nat>)
    requires n <= |key|
    ensures |r| == n && InBounds(r, |key|) && Distinct(r)
    ensures forall j :: 0 <= j < |r| ==> r[j] < n
    ensures forall x :: 0 <= x < n ==> x in r
    ensures SortedDescBy(key, r) && StableBy(key, r)
  {
    if n == 0 then []
    else
      var prev := OrderPrefix(key, n - 1);
      assert n - 1 !in prev;
      var r := InsertDesc(key, n - 1, prev);
      InsertDescDistinct(key, n - 1, prev);
      InsertDescSorted(key, n - 1, prev);
      InsertDescStable(key, n - 1, prev);
      forall j | 0 <= j < |r|
        ensures r[j] < n
      {
        assert r[j] in r;
      }
      r
  }

  /** Every index exactly once, keys in descending order, equal keys in index order. */
  function DescendingOrder(key: seq<real>): (r: seq<nat>)
    ensures |r| == |key| && InBounds(r, |key|) && Distinct(r)
    ensures forall x :: 0 <= x < |key| ==> x in r
    ensures SortedDescBy(key, r) && StableBy(key, r)
  {
    OrderPrefix(key, |key|)
  }
}

=== FILE: sums.dfy ===
/** Sums over integer and real sequences, and the algebra the allocation proofs rely on. */
module Sums {

  /** Sum of an integer sequence: the engine's `reduce((a, b) => a + b, 0)`. */
  function Sum(s: seq<int>): int
  {
    if |s| == 0 then 0 else s[0] + Sum(s[1..])
  }

  /** Sum of a real sequence. */
  function SumReal(s: seq<real>): real
  {
    if |s| == 0 then 0.0 else s[0] + SumReal(s[1..])
  }

  lemma {:induction false} SumAppend(a: seq<int>, b: seq<int>)
    ensures Sum(a + b) == Sum(a) + Sum(b)
  {
    if |a| == 0 {
      assert a + b == b;
    } else {
      assert (a + b)[1..] == a[1..] + b;
      SumAppend(a[1..], b);
    }
  }

  /** Adding `d` to one entry adds `d` to the total. */
  lemma {:induction false} SumUpdate(s: seq<int>, i: int, d: int)
    requires 0 <= i < |s|
    ensures Sum(s[i := s[i] + d]) == Sum(s) + d
  {
    if i == 0 {
      assert s[i := s[i] + d][1..] == s[1..];
    } else {
      assert s[i := s[i] + d][1..] == s[1..][i - 1 := s[i] + d];
      SumUpdate(s[1..], i - 1, d);
    }
  }

  /** The sum of pointwise differences is the difference of the sums. */
  lemma {:induction false} SumDifference(a: seq<int>, b: seq<int>, c: seq<int>)
    requires |a| == |b| == |c|
    requires forall i :: 0 <= i < |c| ==> c[i] == a[i] - b[i]
    ensures Sum(c) == Sum(a) - Sum(b)
  {
    if |c| > 0 {
      SumDifference(a[1..], b[1..], c[1..]);
    }
  }

  lemma {:induction false} SumNonNegative(s: seq<int>)
    requires forall i :: 0 <= i < |s| ==> s[i] >= 0
    ensures Sum(s) >= 0
  {
    if |s| > 0 {
      SumNonNegative(s[1..]);
    }
  }

  lemma {:induction false} SumZeros(s: seq<int>)
    requires forall i :: 0 <= i < |s| ==> s[i] == 0
    ensures Sum(s) == 0
  {
    if |s| > 0 {
      SumZeros(s[1..]);
    }
  }

  lemma {:induction false} SumRealAppend(a: seq<real>, b: seq<real>)
    ensures SumReal(a + b) == SumReal(a) + SumReal(b)
  {
    if |a| == 0 {
      assert a + b == b;
    } else {
      assert (a + b)[1..] == a[1..] + b;
      SumRealAppend(a[1..], b);
    }
  }

  /** Summing an affine image `x * a[i] + y` of a sequence. */
  lemma {:induction false} SumRealAffine(a: seq<real>, b: seq<real>, x: real, y: real)
    requires |a| == |b|
    requires forall i :: 0 <= i < |b| ==> b[i] == x * a[i] + y
    ensures SumReal(b) == x * SumReal(a) + |a| as real * y
  {
    if |a| > 0 {
      SumRealAffine(a[1..], b[1..], x, y);
      assert SumReal(b) == b[0] + x * SumReal(a[1..]) + (|a| - 1) as real * y;
    }
  }

  /** Dividing every entry by `d` divides the sum by `d`. */
  lemma {:induction false} SumRealDivide(a: seq<real>, b: seq<real>, d: real)
    requires d != 0.0
    requires |a| == |b|
    requires forall i :: 0 <= i < |b| ==> b[i] == a[i] / d
    ensures SumReal(b) == SumReal(a) / d
  {
    if |a| > 0 {
      SumRealDivide(a[1..], b[1..], d);
      assert SumReal(b) == a[0] / d + SumReal(a[1..]) / d;
    }
  }

  lemma {:induction false} SumRealNonNegative(s: seq<real>)
    requires forall i :: 0 <= i < |s| ==> s[i] >= 0.0
    ensures SumReal(s) >= 0.0
  {
    if |s| > 0 {
      SumRealNonNegative(s[1..]);
    }
  }

  /** A sum of non-negative reals is at least each of its terms. */
  lemma {:induction false} SumRealAtLeastTerm(s: seq<real>, k: int)
    requires forall i :: 0 <= i < |s| ==> s[i] >= 0.0
    requires 0 <= k < |s|
    ensures SumReal(s) >= s[k]
  {
    SumRealNonNegative(s[1..]);
    if k > 0 {
      SumRealAtLeastTerm(s[1..], k - 1);
    }
  }

  /** A sum of non-negative reals that is not positive has only zero terms. */
  lemma {:induction false} SumRealZeroTerms(s: seq<real>)
    requires forall i :: 0 <= i < |s| ==> s[i] >= 0.0
    requires SumReal(s) <= 0.0
    ensures forall i :: 0 <= i < |s| ==> s[i] == 0.0
  {
    forall k | 0 <= k < |s|
      ensures s[k] == 0.0
    {
      SumRealAtLeastTerm(s, k);
    }
  }

  lemma {:induction false} SumRealZeros(s: seq<real>)
    requires forall i :: 0 <= i < |s| ==> s[i] == 0.0
    ensures SumReal(s) == 0.0
  {
    if |s| > 0 {
      SumRealZeros(s[1..]);
    }
  }

  /** Integers bounded pointwise by reals have a sum bounded by the real sum. */
  lemma {:induction false} SumBelowReal(f: seq<int>, a: seq<real>)
    requires |f| == |a|
    requires forall i :: 0 <= i < |f| ==> f[i] as real <= a[i]
    ensures Sum(f) as real <= SumReal(a)
  {
    if |f| > 0 {
      SumBelowReal(f[1..], a[1..]);
    }
  }

  /** Subtracting integers pointwise from reals subtracts their sum from the real total. */
  lemma {:induction false} SumRealMinusInts(a: seq<real>, f: seq<int>, b: seq<real>)
    requires |a| == |f| == |b|
    requires forall i :: 0 <= i < |b| ==> b[i] == a[i] - f[i] as real
    ensures SumReal(b) == SumReal(a) - Sum(f) as real
  {
    if |b| > 0 {
      SumRealMinusInts(a[1..], f[1..], b[1..]);
    }
  }

  /** Reals bounded pointwise by reals have a sum bounded by theirs. */
  lemma {:induction false} SumRealBelow(a: seq<real>, b: seq<real>)
    requires |a| == |b|
    requires forall i :: 0 <= i < |a| ==> a[i] <= b[i]
    ensures SumReal(a) <= SumReal(b)
  {
    if |a| > 0 {
      SumRealBelow(a[1..], b[1..]);
    }
  }
}
